=== FILE: README.md ===
# Minesweeper probability solver, modelled in Dafny

This project models the core of a Minesweeper helper. The user enters a
partly revealed board:
- clue digits 0..8;
- flags, meaning known mines;
- unknown cells.

The solver then gives, for every unknown cell, the probability that it holds a mine.

The model covers five parts:

- **The solver** (`internal/solver/solver.go`), one module per stage of its pipeline:
  - `Extraction`: the row-major list of unknown cells, and one constraint per clue cell. A constraint holds the target, the flagged neighbours, the unknown neighbours and the off-board neighbour offsets.
  - `Compaction`: which unknowns some constraint mentions (`isConstrained`), their dense numbering (`constrainedToOriginal` and its inverse map), and the rewritten constraints.
  - `Search`: the pruning test `isPossible`, and the depth-first `backtrack`. The visit counter and the cap are threaded through explicitly. A brute-force count of the valid assignments serves as the reference.
  - `Solver`: the whole `Solve`, including the `Solvable` and `Timeout` flags and the probability board. Probabilities are exact rationals (`real`).
- **The square board container** (`internal/model/grid.go`, module `Grid`): `NewGrid`, `Resize`, `GetNeighbors`.
- **The cell encoding** (`internal/model/cell.go`, module `Cells`): unknown is -1, flag is -2, and `String` prints u, f or the decimal number.
- **The terminal front end** (`cmd/solver/main.go`, module `Terminal`):
  - `updateCell`;
  - the `s c r v` command and the bare `c r v` form;
  - the row-major batch update;
  - `expand`, `shrink` and `empty`;
  - the order in which one input line is dispatched.
- **The browser front end** (`docs/app.js`, module `WebGrid`):
  - the row and column edits on the row-major state array;
  - `resetGrid`;
  - the key-to-state mapping, the right-click flag toggle and the arrow-key focus clamping.

The solver reads a rectangular board (`g.Rows`, `g.Cols`), while
`internal/model/grid.go` defines only a square `Size`. The solver is
therefore modelled over its own rectangular `Board` of integer states. The
square `Grid` is modelled as the container the terminal edits.

Four behaviours of the code are worth noting:

- A cap overflow sets `Solvable = false` as well as `Timeout = true` (solver.go:167-170). The probabilities computed from the partial counts are still written.
- A clue with no unknown neighbour yields a constraint with an empty index list, and such a constraint is never checked. The row `0 f u` has a clue 0 next to a flag, yet it is reported solvable, with probability 1/2 on the unknown (`Solver.UncheckedClue`).
- The `expand` and `shrink` messages (main.go:40, main.go:47) speak of a ring on every side. `Resize` actually pads or cuts at the bottom and the right (grid.go:25-39), and `Terminal.Expand` follows `Resize`.
- The batch-size hint at main.go:111 writes `s r c v`. The command itself reads the column first (main.go:68-70), and the model follows the command.

## Model

| member | source | states |
|---|---|---|
| Cells.MarkersAreNotClues | internal/model/cell.go:8-12 | Unknown (-1) and Flag (-2) are distinct, negative, and never a clue value 0..8 |
| Cells.StateString | internal/model/cell.go:20-29 | Unknown prints as "u" and Flag as "f"; a clue 0..8 prints as one character, the digit of its value |
| Cells.StateStringRoundTrip | internal/model/cell.go:20-29 | reading back the printed text of any integer state gives that state again |
| Cells.StateStringInjective | internal/model/cell.go:20-29 | two states with the same printed text are the same state |
| Cells.ParseInt | cmd/solver/main.go:127 | a token is accepted exactly when it is a non-empty run of digits, or a sign followed by a non-empty run of digits; digits read as their decimal value, and a signed token as plus or minus the value of its digits |
| Cells.ParseIntIgnoresCase | cmd/solver/main.go:126-128 | the decimal reading of a token is the same for the token and its lower-case form |
| Grid.NewGrid | internal/model/grid.go:10-22 | an n x n well-formed board of size n, every cell unknown |
| Grid.Resize | internal/model/grid.go:25-39 | a well-formed board of the new size; a cell inside both the old and the new square keeps its state, every other cell is unknown |
| Grid.ResizeGrowShrink | internal/model/grid.go:30-34 | growing by any k and shrinking back returns the original board |
| Grid.ResizeSameSize | internal/model/grid.go:25-39 | resizing to the current size changes nothing |
| Grid.GetNeighbors | internal/model/grid.go:42-56 | at most 8 positions, no repeats; a position is listed exactly when it is on the board and at Chebyshev distance 1; an interior cell has exactly 8 |
| Grid.NeighborsExcludeSelf | internal/model/grid.go:42-56 | a cell is not its own neighbour; every neighbour is on the board at distance exactly 1 |
| Grid.NeighborsSymmetric | internal/model/grid.go:44-54 | for two on-board cells, q neighbours p exactly when p neighbours q |
| Geometry.AroundIsAdjacent | internal/solver/solver.go:56-61 | the eight offsets of the scan reach exactly the positions at Chebyshev distance 1 |
| Geometry.AroundSize | internal/solver/solver.go:56-61 | the eight offsets reach eight different positions |
| Extraction.UnknownPositions | internal/solver/solver.go:24-32 | exactly the on-board unknown cells, in row-major order, each once |
| Extraction.ClueCells | internal/solver/solver.go:38-45 | exactly the on-board cells with a state of at least 0, in row-major order, each once |
| Extraction.Scan | internal/solver/solver.go:48-79 | the target is the clue's own state, every listed index names an unknown, and flags, listed unknowns and off-board offsets together number at most the offsets scanned |
| Extraction.Extract | internal/solver/solver.go:39-82 | one constraint per clue cell, in row-major order: constraint j has the state of the j-th clue cell as its non-negative target, and lists only indices of unknowns |
| Extraction.ScanAccounts | internal/solver/solver.go:56-79 | after the first n offsets: flags counted, off-board offsets counted, each unknown neighbour listed once, and the four kinds of neighbour add up to n |
| Extraction.ClueConstraint | internal/solver/solver.go:43-80 | the constraint of each clue cell: its target is the clue, knownMines counts the flagged neighbours, the index list names exactly the unknown neighbours once each, missingNeighbors counts the off-board offsets, and these plus the remaining neighbours make 8 |
| Compaction.ConstrainedFlags | internal/solver/solver.go:85-94 | isConstrained[i] holds exactly when some constraint lists unknown i |
| Compaction.Compact | internal/solver/solver.go:97-104 | constrainedToOriginal is strictly increasing and lists exactly the flagged unknowns |
| Compaction.DenseIndex | internal/solver/solver.go:98-103 | originalToConstrained has exactly the constrained unknowns as keys, and maps each to the position where constrainedToOriginal lists it |
| Compaction.DenseInverse | internal/solver/solver.go:97-104 | originalToConstrained and constrainedToOriginal are inverse to each other, both ways |
| Compaction.CompactCount | internal/solver/solver.go:85-104 | constrainedCount equals the number of unknowns some constraint mentions |
| Compaction.Reduce | internal/solver/solver.go:85-113 | rewritten indices are below constrainedCount and map back, through constrainedToOriginal, to the original indices; target, knownMines and missingNeighbors are kept |
| Search.IsPossible | internal/solver/solver.go:202-238 | isPossible holds exactly when 0 <= target - (knownMines + decided mines) <= undecided unknowns + missingNeighbors; the third check adds nothing |
| Search.Watchers | internal/solver/solver.go:116-121 | for every dense unknown v, uIdxToConstraints[v] holds constraint j exactly when constraint j lists v |
| Search.SatisfiedIsPossible | internal/solver/solver.go:202-238 | an assignment that meets a constraint passes the check at every depth, so pruning never cuts a valid assignment |
| Search.ResolvedSatisfies | internal/solver/solver.go:227-235 | once every unknown of a constraint is decided, passing the check means the constraint is met |
| Search.DeadPrefix | internal/solver/solver.go:137-145 | when a constraint with unknowns fails the check on a prefix, no completion of that prefix is valid |
| Search.MinesWithinValid | internal/solver/solver.go:147-153 | for every variable, the assignments with that variable a mine are among the valid ones |
| Search.Backtrack | internal/solver/solver.go:131-163 | every call counts at least one visit; the total and each mine count only grow, and a mine count grows by at most what the total grows |
| Search.BacktrackVisits | internal/solver/solver.go:131-163 | a call at depth d makes at most 2^(K-d+1) - 1 visits |
| Search.BacktrackExact | internal/solver/solver.go:131-163 | unless the cap was passed, a call adds exactly the valid completions of its prefix to the total, and to each mine count the valid completions with that variable a mine |
| Search.EmptySearch | internal/solver/solver.go:131-155 | with no constrained unknown and a cap of at least 1, the search makes one visit and counts one configuration |
| Search.SmallSearchFits | internal/solver/solver.go:126-135 | with at most 22 constrained unknowns, a cap of at least 2^23 - 1 is never passed |
| Search.Enumerate | internal/solver/solver.go:116-165 | unless the cap was passed, totalValidConfigs is the number of valid assignments over constraints with at least one unknown, and mineCounts[i] the number with variable i a mine; passing the cap needs 2^(K+1) - 1 > cap |
| Solver.Analyze | internal/solver/solver.go:24-165 | the unknown list is the row-major unknowns; a flag is set exactly for the unknowns some extracted constraint lists; the dense order is their compaction; the constraints are the extracted ones rewritten by Reduce; the counters are those of the enumeration over them |
| Solver.NoTimeoutUpTo22 | internal/solver/solver.go:127-170 | with the program's cap of 10,000,000, a board with at most 22 constrained unknowns never passes the cap, so by Solve's contract it never sets Timeout |
| Solver.Ratio | internal/solver/solver.go:177 | mineCounts[i] / totalValidConfigs lies in [0, 1] |
| Solver.Expected | internal/solver/solver.go:172-189 | the value due at every unknown lies in [0, 1] |
| Solver.NoConstrainedUnknowns | internal/solver/solver.go:147-185 | with no constrained unknown there is exactly one valid configuration and every unknown gets 1/2 |
| Solver.ExpectedIsExact | internal/solver/solver.go:173-185 | unless the cap was passed, a constrained unknown gets the share of valid assignments that make it a mine, an unconstrained one gets 1/2, and with no valid assignment every unknown gets 0 |
| Solver.Aggregate | internal/solver/solver.go:172-189 | the probability board has the board's shape, holds the due value at every unknown, 0 at every other cell, and only values in [0, 1] |
| Solver.FillConstrained | internal/solver/solver.go:175-178 | after the first loop of step 6, every constrained unknown holds its mine count over the total, every other unknown and every other cell 0 |
| Solver.FillFree | internal/solver/solver.go:180-185 | the second loop puts 1/2 on every unconstrained unknown, keeps what the constrained unknowns hold, and leaves other cells at 0 |
| Solver.Solve | internal/solver/solver.go:15-192 | the shape and range of the board; 0 off the unknowns; no unknowns gives Solvable and no Timeout; otherwise Timeout exactly on a cap overflow (which needs 2^(K+1) - 1 > cap) and Solvable exactly without overflow and with a valid assignment; every unknown holds its due value, partial counts included |
| Solver.UncheckedClue | internal/solver/solver.go:116-145 | on the row `0 f u` the contradictory clue is never checked: one valid configuration, and 1/2 on the unknown |
| Terminal.ParseToken | cmd/solver/main.go:119-133 | u, f and e in any case name Unknown, Flag and 0; every token that Atoi reads as 0..8 (signs and leading zeros included) names that clue; a token is accepted exactly in these cases; an accepted token always names a valid state |
| Terminal.ParseTokenAtoiForms | cmd/solver/main.go:127-131 | "+3" and "03" set clue 3 and "-0" sets 0, while "9" and "-1" are rejected |
| Terminal.ParseTokenIgnoresCase | cmd/solver/main.go:119 | two tokens with the same lower-case form name the same state |
| Terminal.ParseTokenRoundTrip | cmd/solver/main.go:118-134 | the printed text of every valid state is read back as that state |
| Terminal.UpdateCell | cmd/solver/main.go:118-134 | succeeds exactly for an accepted token and then sets (r, c) to its state; on failure the board is unchanged; no other cell ever changes |
| Terminal.UpdateCellRoundTrip | cmd/solver/main.go:118-134 | writing a cell's own printed text back succeeds and leaves the board as it was |
| Terminal.EditAt | cmd/solver/main.go:68-71 | a coordinate edit applies exactly when both coordinates parse, both lie in [0, Size) and the symbol is accepted; the column token comes first; otherwise nothing changes |
| Terminal.SetCommand | cmd/solver/main.go:66-79 | `s` applies only with exactly four tokens, reading column, row, symbol; a refused command leaves the board unchanged |
| Terminal.ValidPrefix | cmd/solver/main.go:97-104 | the tokens before the returned position are all accepted and the token at it is not |
| Terminal.BatchUpdate | cmd/solver/main.go:94-108 | the row-major write loop over the tokens gives the same board and success flag as the batch reference |
| Terminal.BatchPlacement | cmd/solver/main.go:94-108 | token i lands on row i / Size, column i % Size for every token before the first invalid one; the later tokens' cells keep their state; success exactly when every token is accepted |
| Terminal.BatchRoundTrip | cmd/solver/main.go:94-108 | typing back the printed text of every cell, row by row, succeeds and changes nothing |
| Terminal.Expand | cmd/solver/main.go:38-42 | the size grows by 2 |
| Terminal.Shrink | cmd/solver/main.go:44-52 | shrinking applies exactly when Size > 2 and then takes 2 off the size; otherwise the board is unchanged |
| Terminal.ShrinkUndoesExpand | cmd/solver/main.go:38-52 | shrink after expand succeeds and restores the board |
| Terminal.Empty | cmd/solver/main.go:54-58 | the same size, every cell unknown |
| Terminal.SquareNotThree | cmd/solver/main.go:82-95 | no board size squares to 3, so a three-token line never reaches the batch update |
| Terminal.Execute | cmd/solver/main.go:38-113 | expand, shrink and empty apply Expand, Shrink and Empty; a first token of s or S applies the `s` command, ahead of everything else; another three-token line applies the coordinate edit when it succeeds and otherwise changes nothing; any other line of Size² tokens applies the batch update; any other line changes nothing; the size changes only by expand or shrink and never drops below 1 |
| WebGrid.Initial | docs/app.js:101-105 | the page starts with a 3 x 3 array of unknowns |
| WebGrid.AddRow | docs/app.js:107-119 | one more row, the array still rows x cols, and its rows are the old rows with a row of unknowns on top or at the bottom |
| WebGrid.RemoveRow | docs/app.js:121-130 | refused with one row; otherwise one row fewer, the rows being the old rows without the first or the last |
| WebGrid.RemoveRowUndoesAddRow | docs/app.js:107-130 | removing the row just added, on the same side, restores the array |
| WebGrid.WithColumn | docs/app.js:132-139 | one more column, the array still rows x cols, and each row gains an unknown on the left or on the right |
| WebGrid.AddCol | docs/app.js:132-139 | the per-row splice at r * (cols + 1), or r * (cols + 1) + cols, builds exactly the widened board |
| WebGrid.WithoutColumn | docs/app.js:141-149 | refused with one column; otherwise one column fewer and each row loses its first or last cell |
| WebGrid.RemoveCol | docs/app.js:141-149 | the per-row cut at r * (cols - 1), or r * (cols - 1) + cols - 1, builds exactly the narrowed board |
| WebGrid.WithoutColumnUndoesWithColumn | docs/app.js:132-149 | removing the column just added, on the same side, restores the array |
| WebGrid.ResetGrid | docs/app.js:151-155 | same rows and columns, every row all unknown |
| WebGrid.DigitKeyStart | docs/app.js:40 | a key in the '0'..'8' string range starts with a digit 0..8; a one-character key is in range exactly when it is such a digit |
| WebGrid.ParseLeading | docs/app.js:41 | a key that starts with a digit reads as the value Atoi gives its leading run of digits, so a key of digits alone reads as Atoi reads it; a key whose first digit stands alone reads as that digit |
| WebGrid.KeyState | docs/app.js:40-47 | a key in the digit range writes its leading number; Backspace and Delete write unknown |
| WebGrid.KeyStateAgreesWithTerminal | docs/app.js:40-47 | for one-character keys the page writes exactly the state the terminal reads for the same symbol, always a valid state |
| WebGrid.KeyDown | docs/app.js:36-58 | only the focused cell can change; a state key writes its state there; other keys leave the array alone; the focus always stays within [0, length - 1] |
| WebGrid.ArrowMoves | docs/app.js:48-55 | arrows move the focus by one cell or one row when that stays in the array, and right-arrow on the last cell stays there |
| WebGrid.Toggle | docs/app.js:76 | the result is a flag exactly when the old state was not a flag, and otherwise unknown |
| WebGrid.ToggleTwice | docs/app.js:76 | two right clicks give a marker back and turn any clue into unknown |
| WebGrid.RightClick | docs/app.js:72-81 | only the clicked cell changes, by the toggle, and the focus moves there |

## Left out

- Terminal I/O: the read loop, `exit`, blank lines, messages and `displayResult`. A command is modelled as the whitespace-split tokens of one trimmed line; `strings.Fields` and `TrimSpace` themselves are not modelled.
- The browser DOM: rendering, focusing, colours, percentage formatting, alerts, the `solve()` call and WASM loading. The `probability` carried by each page cell is not modelled, so `resetGrid` is modelled only for the states.
- `cmd/wasm/main.go` is not part of this model. It only marshals values between JavaScript and Go.
- Floating point: probabilities are exact rationals, and the 0.5 default is 1/2.
- The cap 10,000,000 is a parameter of `Solve`. The constant `MaxIterations` holds the program's value, and `Solver.NoTimeoutUpTo22` is stated for it. No wall-clock time is modelled.
- The `Probability` field of `Cell` is not modelled, because the solver never uses it.
- Integer width: states and counters are unbounded integers. `strconv.Atoi` is an optional sign followed by decimal digits, with no 64-bit overflow error. This changes nothing for the bounds checks, because an out-of-range number is rejected by the 0..8 check or the board bounds in both versions.
- `strings.ToLower` and `toLowerCase` are modelled on ASCII letters only. Unicode case mapping is left out.
- Cells.ParseIntIgnoresCase: holds for the ASCII lowering only.
- Go's linear search for an unknown's index is modelled as a first-occurrence lookup.
- The watcher lists (`uIdxToConstraints`) are built in the same order as the program builds them. Their contract states only membership, because the pruning test does not depend on the order.
- Search.Backtrack: the body tries false before true, as the program does, but no contract states the order. The complete counts do not depend on it. The partial counts left after a cap overflow do, and so do the probabilities `Solve` writes from them. With one variable, `Constraint(0, [0], 0, 0)` and a cap of 2, false-first ends with a total of 1 and true-first with 0.
- WebGrid.ParseLeading: reads only decimal digits; `parseInt` would read a key such as "0x1" as hexadecimal 1, where the model gives 0. Browsers do not produce such keys.
- WebGrid.KeyState: keys are arbitrary strings compared lexicographically, as JavaScript does. Only one-character keys are shown to write a valid state; a longer key such as "12" would write 12, and `parseInt` would read a key such as "0x1" as hexadecimal. Browsers do not produce such keys.

=== FILE: cell.dfy ===
/**
 * Cell states of the puzzle board and their one-token text form.
 *
 * A state is a plain integer: -1 is an unknown cell, -2 a flag, and
 * 0..8 a clue giving the number of mines around the cell. The text form
 * renders unknown as "u", flag as "f" and every other state as its decimal
 * integer. The decimal parser here stands in for Go's strconv.Atoi without
 * its 64-bit range limit.
 */
module Cells {
  import opened Options

  const Unknown: int := -1
  const Flag: int := -2

  predicate IsClue(s: int) {
    0 <= s <= 8
  }

  /** The states the board is meant to hold. */
  predicate IsValidState(s: int) {
    s == Unknown || s == Flag || IsClue(s)
  }

  /** The encoding keeps the two markers apart from every clue value. */
  lemma MarkersAreNotClues()
    ensures Unknown != Flag
    ensures !IsClue(Unknown) && !IsClue(Flag)
    ensures Unknown < 0 && Flag < 0
  {
  }

  predicate IsDigit(ch: char) {
    '0' <= ch <= '9'
  }

  function DigitChar(d: int): (ch: char)
    requires 0 <= d <= 9
    ensures IsDigit(ch) && ch as int - '0' as int == d
  {
    ('0' as int + d) as char
  }

  predicate AllDigits(s: string) {
    forall i :: 0 <= i < |s| ==> IsDigit(s[i])
  }

  /** Decimal digits of a natural number, most significant first, no leading zeros. */
  function NatToDecimal(n: nat): (s: string)
    ensures 1 <= |s| && AllDigits(s)
    ensures n < 10 <==> |s| == 1
    decreases n
  {
    if n < 10 then [DigitChar(n)] else NatToDecimal(n / 10) + [DigitChar(n % 10)]
  }

  /** Go's "%d" rendering of an integer. */
  function IntToDecimal(n: int): string {
    if n < 0 then "-" + NatToDecimal(-n) else NatToDecimal(n)
  }

  /** Value of a run of decimal digits. */
  function DigitsValue(s: string): nat
    requires AllDigits(s)
  {
    if |s| == 0 then 0
    else DigitsValue(s[..|s| - 1]) * 10 + (s[|s| - 1] as int - '0' as int)
  }

  /** An optional sign followed by at least one decimal digit. */
  function ParseInt(t: string): (r: Option<int>)
    ensures |t| > 0 && AllDigits(t) ==> r == Some(DigitsValue(t))
    ensures r.Some? ==> |t| >= 1 && (IsDigit(t[0]) || t[0] == '+' || t[0] == '-') && IsDigit(t[|t| - 1])
    ensures r.Some? && r.value < 0 ==> t[0] == '-'
    ensures r.Some? <==>
              |t| > 0 && (AllDigits(t) || ((t[0] == '+' || t[0] == '-') && |t| > 1 && AllDigits(t[1..])))
    ensures |t| > 1 && (t[0] == '+' || t[0] == '-') && AllDigits(t[1..]) ==>
              r == Some(if t[0] == '-' then 0 - DigitsValue(t[1..]) as int else DigitsValue(t[1..]) as int)
  {
    if |t| > 0 && (t[0] == '+' || t[0] == '-') then
      if |t| > 1 && AllDigits(t[1..]) then
        var v: int := DigitsValue(t[1..]);
        Some(if t[0] == '-' then -v else v)
      else None
    else if |t| > 0 && AllDigits(t) then Some(DigitsValue(t))
    else None
  }

  /** CellState.String. */
  function StateString(s: int): (t: string)
    ensures s == Unknown ==> t == "u"
    ensures s == Flag ==> t == "f"
    ensures IsClue(s) ==> |t| == 1 && IsDigit(t[0]) && t[0] as int - '0' as int == s
  {
    if s == Unknown then "u"
    else if s == Flag then "f"
    else IntToDecimal(s)
  }

  lemma {:induction false} DecimalRoundTrip(n: nat)
    ensures DigitsValue(NatToDecimal(n)) == n
    decreases n
  {
    if n >= 10 {
      var s := NatToDecimal(n / 10);
      DecimalRoundTrip(n / 10);
      assert (s + [DigitChar(n % 10)])[..|s|] == s;
    }
  }

  lemma IntRoundTrip(n: int)
    ensures ParseInt(IntToDecimal(n)) == Some(n)
  {
    if n < 0 {
      var t := "-" + NatToDecimal(-n);
      DecimalRoundTrip(-n);
      assert t[0] == '-' && |t| > 1 && t[1..] == NatToDecimal(-n);
    } else {
      var t := NatToDecimal(n);
      DecimalRoundTrip(n);
      assert |t| > 0 && AllDigits(t);
    }
  }

  /** Reads back the text form; the inverse of StateString. */
  function ParseState(t: string): Option<int> {
    if t == "u" then Some(Unknown)
    else if t == "f" then Some(Flag)
    else ParseInt(t)
  }

  lemma StateStringRoundTrip(s: int)
    ensures ParseState(StateString(s)) == Some(s)
  {
    if s != Unknown && s != Flag {
      IntRoundTrip(s);
      var t := IntToDecimal(s);
      if s < 0 {
        assert t[0] == '-';
      } else {
        assert IsDigit(t[0]);
      }
    }
  }

  /** No two states share a text form, clue or not. */
  lemma StateStringInjective(s1: int, s2: int)
    requires StateString(s1) == StateString(s2)
    ensures s1 == s2
  {
    StateStringRoundTrip(s1);
    StateStringRoundTrip(s2);
  }

  /** Lower-casing, restricted to ASCII letters. */
  function LowerChar(ch: char): char {
    if 'A' <= ch <= 'Z' then (ch as int - 'A' as int + 'a' as int) as char else ch
  }

  function Lower(s: string): string {
    seq(|s|, i requires 0 <= i < |s| => LowerChar(s[i]))
  }

  /** Lowering never turns a letter into a digit, a sign into a letter, or the reverse. */
  lemma LowerKeepsDigits(s: string)
    ensures AllDigits(s) <==> AllDigits(Lower(s))
    ensures AllDigits(s) ==> Lower(s) == s
  {
    if AllDigits(Lower(s)) {
      forall i | 0 <= i < |s|
        ensures IsDigit(s[i])
      {
        assert IsDigit(Lower(s)[i]);
      }
    }
  }

  /** Parsing does not see case: a string and its lowering parse alike. */
  lemma ParseIntIgnoresCase(s: string)
    ensures ParseInt(s) == ParseInt(Lower(s))
  {
    var t := Lower(s);
    if |s| > 0 {
      assert t[0] == LowerChar(s[0]);
      assert Lower(s[1..]) == t[1..];
      LowerKeepsDigits(s);
      LowerKeepsDigits(s[1..]);
    }
  }
}

=== FILE: compaction.dfy ===
/**
 * Step 3 of Solve: the unknown cells that occur in some constraint are
 * renumbered densely 0..K-1 (constrainedToOriginal and its inverse
 * originalToConstrained), and every constraint is rewritten to the dense
 * numbering. Unknown cells in no constraint are left out of the search.
 */
module Compaction {
  import opened Extraction
  import opened Sequences

  /** Sets the flag of every index in ix. */
  function Mark(flags: seq<bool>, ix: seq<nat>): (f: seq<bool>)
    requires forall i :: i in ix ==> i < |flags|
    ensures |f| == |flags|
    ensures forall i :: 0 <= i < |f| ==> (f[i] <==> flags[i] || i in ix)
    decreases |ix|
  {
    if |ix| == 0 then flags
    else
      assert ix[0] in ix;
      assert forall i :: i in ix[1..] ==> i in ix;
      Mark(flags[ix[0] := true], ix[1..])
  }

  predicate IndicesBelow(cs: seq<Constraint>, n: int) {
    forall j, i :: 0 <= j < |cs| && i in cs[j].unknowns ==> i < n
  }

  /** An index is constrained when some constraint lists it. */
  predicate Mentioned(cs: seq<Constraint>, i: int) {
    exists j :: 0 <= j < |cs| && i in cs[j].unknowns
  }

  /** isConstrained: the flags after marking the indices of every constraint in turn. */
  function ConstrainedFlags(cs: seq<Constraint>, n: nat): (f: seq<bool>)
    requires IndicesBelow(cs, n)
    ensures |f| == n
    ensures forall i :: 0 <= i < n ==> (f[i] <==> Mentioned(cs, i))
  {
    if |cs| == 0 then seq(n, _ => false)
    else
      var f := Mark(ConstrainedFlags(cs[..|cs| - 1], n), cs[|cs| - 1].unknowns);
      assert forall i :: 0 <= i < n ==> (f[i] <==> Mentioned(cs, i)) by {
        forall i | 0 <= i < n
          ensures f[i] <==> Mentioned(cs, i)
        {
          if Mentioned(cs, i) {
            var j :| 0 <= j < |cs| && i in cs[j].unknowns;
            if j < |cs| - 1 {
              assert cs[..|cs| - 1][j] == cs[j];
            }
          }
          if Mentioned(cs[..|cs| - 1], i) {
            var j :| 0 <= j < |cs| - 1 && i in cs[..|cs| - 1][j].unknowns;
            assert cs[j] == cs[..|cs| - 1][j];
          }
        }
      }
      f
  }

  /** constrainedToOriginal: the flagged indices, in increasing order. */
  function Compact(f: seq<bool>): (c2o: seq<nat>)
    ensures Increasing(c2o)
    ensures forall k :: 0 <= k < |c2o| ==> c2o[k] < |f| && f[c2o[k]]
    ensures forall i :: 0 <= i < |f| && f[i] ==> i in c2o
  {
    if |f| == 0 then []
    else
      var last := |f| - 1;
      var front := Compact(f[..last]);
      assert forall i :: 0 <= i < last && f[i] ==> i in front by {
        forall i | 0 <= i < last && f[i]
          ensures i in front
        {
          assert f[..last][i] == f[i];
        }
      }
      front + (if f[last] then [last] else [])
  }

  /** originalToConstrained[i]: how many flagged indices come before i. */
  function Rank(f: seq<bool>, i: int): (r: nat)
    requires 0 <= i <= |f|
    ensures i < |f| && f[i] ==> r < |Compact(f)| && Compact(f)[r] == i
  {
    if i < |f| && f[i] then
      PrefixHits(f, i);
      |Compact(f[..i])|
    else |Compact(f[..i])|
  }

  /** originalToConstrained as the map the solver builds. */
  function DenseIndex(f: seq<bool>): (o2c: map<nat, nat>)
    ensures forall i :: i in o2c <==> 0 <= i < |f| && f[i]
    ensures forall i :: i in o2c ==> o2c[i] < |Compact(f)| && Compact(f)[o2c[i]] == i
  {
    map i: nat | i < |f| && f[i] :: Rank(f, i)
  }

  lemma {:induction false} CompactPrefix(f: seq<bool>, i: int)
    requires 0 <= i <= |f|
    ensures Compact(f[..i]) <= Compact(f)
    decreases |f|
  {
    if i < |f| {
      var g := f[..|f| - 1];
      assert g[..i] == f[..i];
      CompactPrefix(g, i);
    } else {
      assert f[..i] == f;
    }
  }

  /** constrainedToOriginal and originalToConstrained are inverse bijections. */
  lemma DenseInverse(f: seq<bool>)
    ensures var c2o := Compact(f); var o2c := DenseIndex(f);
      && (forall k :: 0 <= k < |c2o| ==> c2o[k] in o2c && o2c[c2o[k]] == k)
      && (forall i :: i in o2c ==> o2c[i] < |c2o| && c2o[o2c[i]] == i)
  {
    var c2o := Compact(f);
    var o2c := DenseIndex(f);
    forall i | i in o2c
      ensures o2c[i] < |c2o| && c2o[o2c[i]] == i
    {
    }
    forall k | 0 <= k < |c2o|
      ensures c2o[k] in o2c && o2c[c2o[k]] == k
    {
      var i := c2o[k];
      assert c2o[Rank(f, i)] == c2o[k];
    }
  }

  /** A flagged index sits in constrainedToOriginal just after the flagged indices below it. */
  lemma PrefixHits(f: seq<bool>, i: int)
    requires 0 <= i < |f| && f[i]
    ensures |Compact(f[..i])| < |Compact(f)| && Compact(f)[|Compact(f[..i])|] == i
  {
    CompactPrefix(f, i + 1);
    assert f[..i + 1][..i] == f[..i];
    assert Compact(f[..i + 1]) == Compact(f[..i]) + [i];
  }

  /** constrainedCount is the number of constrained indices. */
  lemma CompactCount(f: seq<bool>)
    ensures |Compact(f)| == |set i: nat | i < |f| && f[i]|
  {
    var c2o := Compact(f);
    IncreasingIsDistinct(c2o);
    DistinctCardinality(c2o);
    var flagged := set i: nat | i < |f| && f[i];
    forall x: nat
      ensures x in c2o <==> x in flagged
    {
      if x in c2o {
        var k :| 0 <= k < |c2o| && c2o[k] == x;
      }
    }
    assert Elements(c2o) == flagged;
  }

  /** The constraints with every unknown index replaced by its dense number. */
  function Rewrite(cs: seq<Constraint>, o2c: map<nat, nat>): (ds: seq<Constraint>)
    requires forall j, i :: 0 <= j < |cs| && i in cs[j].unknowns ==> i in o2c
    ensures |ds| == |cs|
    ensures forall j :: 0 <= j < |cs| ==>
              && ds[j].target == cs[j].target
              && ds[j].knownMines == cs[j].knownMines
              && ds[j].missing == cs[j].missing
              && |ds[j].unknowns| == |cs[j].unknowns|
              && forall k :: 0 <= k < |cs[j].unknowns| ==> ds[j].unknowns[k] == o2c[cs[j].unknowns[k]]
  {
    seq(|cs|, j requires 0 <= j < |cs| =>
      var before := cs[j].unknowns;
      cs[j].(unknowns := seq(|before|, k requires 0 <= k < |before| => o2c[before[k]])))
  }

  /** The outcome of step 3. */
  datatype Reduction = Reduction(flags: seq<bool>, order: seq<nat>, constraints: seq<Constraint>)

  /**
   * Step 3 as a whole: mark, renumber and rewrite. Every rewritten index is
   * below constrainedCount and leads back, through constrainedToOriginal,
   * to the unknown the constraint listed.
   */
  function Reduce(raw: seq<Constraint>, n: nat): (red: Reduction)
    requires IndicesBelow(raw, n)
    ensures |red.flags| == n
    ensures forall i :: 0 <= i < n ==> (red.flags[i] <==> Mentioned(raw, i))
    ensures red.order == Compact(red.flags)
    ensures IndicesBelow(red.constraints, |red.order|)
    ensures |red.constraints| == |raw|
    ensures forall j :: 0 <= j < |raw| ==>
              && red.constraints[j].target == raw[j].target
              && red.constraints[j].knownMines == raw[j].knownMines
              && red.constraints[j].missing == raw[j].missing
              && |red.constraints[j].unknowns| == |raw[j].unknowns|
              && forall x :: 0 <= x < |raw[j].unknowns| ==>
                   && red.constraints[j].unknowns[x] < |red.order|
                   && red.order[red.constraints[j].unknowns[x]] == raw[j].unknowns[x]
  {
    var flags := ConstrainedFlags(raw, n);
    var order := Compact(flags);
    var dense := DenseIndex(flags);
    assert forall j, i :: 0 <= j < |raw| && i in raw[j].unknowns ==> i in dense by {
      forall j, i | 0 <= j < |raw| && i in raw[j].unknowns
        ensures i in dense
      {
        assert Mentioned(raw, i);
      }
    }
    var cs := Rewrite(raw, dense);
    DenseInverse(flags);
    assert IndicesBelow(cs, |order|) by {
      forall j, v | 0 <= j < |cs| && v in cs[j].unknowns
        ensures v < |order|
      {
        var x :| 0 <= x < |cs[j].unknowns| && cs[j].unknowns[x] == v;
        assert v == dense[raw[j].unknowns[x]];
      }
    }
    assert forall j, x :: 0 <= j < |cs| && 0 <= x < |cs[j].unknowns| ==> cs[j].unknowns[x] in cs[j].unknowns;
    Reduction(flags, order, cs)
  }
}

=== FILE: constraints.dfy ===
/**
 * Steps 1 and 2 of Solve: the rectangular board the solver reads, the
 * row-major list of unknown cells, and one constraint per clue cell.
 *
 * A constraint records the clue's target, the number of flagged
 * neighbours, the unknown-list indices of its unknown neighbours and the
 * number of neighbour offsets that fall off the board. States are raw
 * integers; any state below zero is not a clue, exactly as the solver's
 * `state < 0` test has it.
 */
module Extraction {
  import opened Cells
  import opened Geometry
  import opened Sequences

  /** The rows x cols board handed to Solve. */
  datatype Board = Board(rows: nat, cols: nat, cells: seq<seq<int>>)

  predicate WellFormed(b: Board) {
    && |b.cells| == b.rows
    && forall r :: 0 <= r < |b.cells| ==> |b.cells[r]| == b.cols
  }

  predicate InBounds(b: Board, q: Pos) {
    0 <= q.0 < b.rows && 0 <= q.1 < b.cols
  }

  function At(b: Board, q: Pos): int
    requires WellFormed(b) && InBounds(b, q)
  {
    b.cells[q.0][q.1]
  }

  /** Row-major order on positions. */
  predicate Before(p: Pos, q: Pos) {
    p.0 < q.0 || (p.0 == q.0 && p.1 < q.1)
  }

  predicate RowMajorSorted(ps: seq<Pos>) {
    forall i, j :: 0 <= i < j < |ps| ==> Before(ps[i], ps[j])
  }

  lemma SortedIsDistinct(ps: seq<Pos>)
    requires RowMajorSorted(ps)
    ensures Distinct(ps)
  {
    forall i, j | 0 <= i < |ps| && 0 <= j < |ps| && i != j
      ensures ps[i] != ps[j]
    {
      if i < j {
        assert Before(ps[i], ps[j]);
      } else {
        assert Before(ps[j], ps[i]);
      }
    }
  }

  /** Every position of a rows x cols board, in the order of the solver's nested loops. */
  function RowMajor(rows: nat, cols: nat): (ps: seq<Pos>)
    ensures |ps| == rows * cols
    ensures forall q :: q in ps <==> 0 <= q.0 < rows && 0 <= q.1 < cols
    ensures RowMajorSorted(ps)
  {
    if rows == 0 then []
    else
      var front := RowMajor(rows - 1, cols);
      var last := seq(cols, c => (rows - 1, c));
      assert forall q :: q in last <==> q.0 == rows - 1 && 0 <= q.1 < cols by {
        forall q: Pos | q.0 == rows - 1 && 0 <= q.1 < cols
          ensures q in last
        {
          assert last[q.1] == q;
        }
      }
      front + last
  }

  /** The positions of ps, in order, whose state satisfies keep. */
  function CellsWhere(b: Board, ps: seq<Pos>, keep: int -> bool): (qs: seq<Pos>)
    requires WellFormed(b)
    requires forall i :: 0 <= i < |ps| ==> InBounds(b, ps[i])
    ensures forall q :: q in qs <==> q in ps && keep(At(b, q))
    ensures RowMajorSorted(ps) ==> RowMajorSorted(qs)
  {
    if |ps| == 0 then []
    else
      var rest := CellsWhere(b, ps[1..], keep);
      assert RowMajorSorted(ps) ==> forall q :: q in rest ==> Before(ps[0], q) by {
        if RowMajorSorted(ps) {
          forall q | q in rest
            ensures Before(ps[0], q)
          {
            var i :| 0 <= i < |ps[1..]| && ps[1..][i] == q;
            assert ps[i + 1] == q;
          }
        }
      }
      if keep(At(b, ps[0])) then [ps[0]] + rest else rest
  }

  /** Step 1: the unknown cells in row-major order; their indices are the solver's variables. */
  function UnknownPositions(b: Board): (us: seq<Pos>)
    requires WellFormed(b)
    ensures forall q :: q in us <==> InBounds(b, q) && At(b, q) == Unknown
    ensures RowMajorSorted(us) && Distinct(us)
  {
    var us := CellsWhere(b, RowMajor(b.rows, b.cols), s => s == Unknown);
    SortedIsDistinct(us);
    us
  }

  /** The clue cells (state >= 0) in row-major order, one constraint each. */
  function ClueCells(b: Board): (cs: seq<Pos>)
    requires WellFormed(b)
    ensures forall q :: q in cs <==> InBounds(b, q) && At(b, q) >= 0
    ensures RowMajorSorted(cs) && Distinct(cs)
  {
    var cs := CellsWhere(b, RowMajor(b.rows, b.cols), s => s >= 0);
    SortedIsDistinct(cs);
    cs
  }

  /** Every unknown cell of the board occurs in unk. */
  predicate Listed(b: Board, unk: seq<Pos>)
    requires WellFormed(b)
  {
    forall r, c :: 0 <= r < b.rows && 0 <= c < b.cols && b.cells[r][c] == Unknown ==> (r, c) in unk
  }

  /** The first index holding q: the linear search of the extraction loop. */
  function IndexOf(s: seq<Pos>, q: Pos): (i: nat)
    requires q in s
    ensures i < |s| && s[i] == q && q !in s[..i]
  {
    if s[0] == q then 0
    else
      var i := IndexOf(s[1..], q);
      assert s[1..][..i] == s[1..i + 1];
      assert s[..i + 1] == [s[0]] + s[1..i + 1];
      i + 1
  }

  datatype Constraint = Constraint(
    target: int,          // the clue's value
    unknowns: seq<nat>,   // indices of the unknown neighbours
    knownMines: nat,      // flagged neighbours
    missing: nat          // neighbour offsets that fall off the board
  )

  /** The constraint of the clue at p after the first n neighbour offsets. */
  function Scan(b: Board, unk: seq<Pos>, p: Pos, n: int): (cst: Constraint)
    requires WellFormed(b) && InBounds(b, p) && Listed(b, unk)
    requires 0 <= n <= 8
    ensures cst.target == At(b, p)
    ensures forall i :: i in cst.unknowns ==> i < |unk|
    ensures cst.knownMines + |cst.unknowns| + cst.missing <= n
    decreases n
  {
    if n == 0 then Constraint(At(b, p), [], 0, 0)
    else
      var prev := Scan(b, unk, p, n - 1);
      var q := Shift(p, n - 1);
      if InBounds(b, q) then
        if At(b, q) == Flag then prev.(knownMines := prev.knownMines + 1)
        else if At(b, q) == Unknown then prev.(unknowns := prev.unknowns + [IndexOf(unk, q)])
        else prev
      else prev.(missing := prev.missing + 1)
  }

  function FlagsAmong(b: Board, s: set<Pos>): set<Pos>
    requires WellFormed(b)
  {
    set q | q in s && InBounds(b, q) && At(b, q) == Flag
  }

  function UnknownsAmong(b: Board, s: set<Pos>): set<Pos>
    requires WellFormed(b)
  {
    set q | q in s && InBounds(b, q) && At(b, q) == Unknown
  }

  function OthersAmong(b: Board, s: set<Pos>): set<Pos>
    requires WellFormed(b)
  {
    set q | q in s && InBounds(b, q) && At(b, q) != Flag && At(b, q) != Unknown
  }

  function OutsideOf(b: Board, s: set<Pos>): set<Pos> {
    set q | q in s && !InBounds(b, q)
  }

  /** The cells whose indices a constraint lists. */
  function Targets(unk: seq<Pos>, ix: seq<nat>): set<Pos>
    requires forall i :: i in ix ==> i < |unk|
  {
    set i | i in ix :: unk[i]
  }

  predicate IsFlagAt(b: Board, q: Pos)
    requires WellFormed(b)
  {
    InBounds(b, q) && At(b, q) == Flag
  }

  predicate IsUnknownAt(b: Board, q: Pos)
    requires WellFormed(b)
  {
    InBounds(b, q) && At(b, q) == Unknown
  }

  predicate IsOtherAt(b: Board, q: Pos)
    requires WellFormed(b)
  {
    InBounds(b, q) && At(b, q) != Flag && At(b, q) != Unknown
  }

  /** Adding one new position grows exactly the class it falls into. */
  lemma AddPosition(b: Board, s: set<Pos>, q: Pos)
    requires WellFormed(b) && q !in s
    ensures |FlagsAmong(b, s + {q})| == |FlagsAmong(b, s)| + (if IsFlagAt(b, q) then 1 else 0)
    ensures UnknownsAmong(b, s + {q}) == UnknownsAmong(b, s) + (if IsUnknownAt(b, q) then {q} else {})
    ensures |UnknownsAmong(b, s + {q})| == |UnknownsAmong(b, s)| + (if IsUnknownAt(b, q) then 1 else 0)
    ensures |OthersAmong(b, s + {q})| == |OthersAmong(b, s)| + (if IsOtherAt(b, q) then 1 else 0)
    ensures |OutsideOf(b, s + {q})| == |OutsideOf(b, s)| + (if InBounds(b, q) then 0 else 1)
  {
    AddFlag(b, s, q);
    AddUnknown(b, s, q);
    AddOther(b, s, q);
    AddOutside(b, s, q);
  }

  lemma AddFlag(b: Board, s: set<Pos>, q: Pos)
    requires WellFormed(b) && q !in s
    ensures |FlagsAmong(b, s + {q})| == |FlagsAmong(b, s)| + (if IsFlagAt(b, q) then 1 else 0)
  {
    if IsFlagAt(b, q) {
      assert FlagsAmong(b, s + {q}) == FlagsAmong(b, s) + {q};
    } else {
      assert FlagsAmong(b, s + {q}) == FlagsAmong(b, s);
    }
  }

  lemma AddUnknown(b: Board, s: set<Pos>, q: Pos)
    requires WellFormed(b) && q !in s
    ensures UnknownsAmong(b, s + {q}) == UnknownsAmong(b, s) + (if IsUnknownAt(b, q) then {q} else {})
    ensures |UnknownsAmong(b, s + {q})| == |UnknownsAmong(b, s)| + (if IsUnknownAt(b, q) then 1 else 0)
  {
    if IsUnknownAt(b, q) {
      assert UnknownsAmong(b, s + {q}) == UnknownsAmong(b, s) + {q};
    } else {
      assert UnknownsAmong(b, s + {q}) == UnknownsAmong(b, s);
    }
  }

  lemma AddOther(b: Board, s: set<Pos>, q: Pos)
    requires WellFormed(b) && q !in s
    ensures |OthersAmong(b, s + {q})| == |OthersAmong(b, s)| + (if IsOtherAt(b, q) then 1 else 0)
  {
    if IsOtherAt(b, q) {
      assert OthersAmong(b, s + {q}) == OthersAmong(b, s) + {q};
    } else {
      assert OthersAmong(b, s + {q}) == OthersAmong(b, s);
    }
  }

  lemma AddOutside(b: Board, s: set<Pos>, q: Pos)
    requires q !in s
    ensures |OutsideOf(b, s + {q})| == |OutsideOf(b, s)| + (if InBounds(b, q) then 0 else 1)
  {
    if InBounds(b, q) {
      assert OutsideOf(b, s + {q}) == OutsideOf(b, s);
    } else {
      assert OutsideOf(b, s + {q}) == OutsideOf(b, s) + {q};
    }
  }

  /** Appending the index of a not-yet-listed cell keeps the list free of repeats. */
  lemma AppendTarget(unk: seq<Pos>, ix: seq<nat>, k: nat)
    requires forall i :: i in ix ==> i < |unk|
    requires Distinct(ix) && k < |unk| && unk[k] !in Targets(unk, ix)
    ensures Distinct(ix + [k])
    ensures Targets(unk, ix + [k]) == Targets(unk, ix) + {unk[k]}
  {
  }

  /**
   * The counts of cst account for the positions in s: flags and off-board
   * positions counted, each unknown listed once, and the four classes
   * splitting the n positions.
   */
  predicate Accounted(b: Board, unk: seq<Pos>, s: set<Pos>, cst: Constraint, n: int)
    requires WellFormed(b)
    requires forall i :: i in cst.unknowns ==> i < |unk|
  {
    && cst.knownMines == |FlagsAmong(b, s)|
    && cst.missing == |OutsideOf(b, s)|
    && Distinct(cst.unknowns)
    && Targets(unk, cst.unknowns) == UnknownsAmong(b, s)
    && |cst.unknowns| == |UnknownsAmong(b, s)|
    && |FlagsAmong(b, s)| + |UnknownsAmong(b, s)| + |OutsideOf(b, s)| + |OthersAmong(b, s)| == n
  }

  /** One more offset keeps the account. */
  lemma ScanStep(b: Board, unk: seq<Pos>, p: Pos, n: int)
    requires WellFormed(b) && InBounds(b, p) && Listed(b, unk)
    requires 1 <= n <= 8
    requires Accounted(b, unk, Seen(p, n - 1), Scan(b, unk, p, n - 1), n - 1)
    ensures Accounted(b, unk, Seen(p, n), Scan(b, unk, p, n), n)
  {
    SeenStep(p, n - 1);
    var prev := Scan(b, unk, p, n - 1);
    var q := Shift(p, n - 1);
    var s := Seen(p, n - 1);
    AddPosition(b, s, q);
    if IsUnknownAt(b, q) {
      var k := IndexOf(unk, q);
      assert q !in UnknownsAmong(b, s);
      AppendTarget(unk, prev.unknowns, k);
    }
  }

  /**
   * After n offsets the scan has counted the flagged and the off-board
   * positions among them and listed each unknown one once.
   */
  lemma {:induction false} ScanAccounts(b: Board, unk: seq<Pos>, p: Pos, n: int)
    requires WellFormed(b) && InBounds(b, p) && Listed(b, unk)
    requires 0 <= n <= 8
    ensures var cst := Scan(b, unk, p, n);
      && cst.knownMines == |FlagsAmong(b, Seen(p, n))|
      && cst.missing == |OutsideOf(b, Seen(p, n))|
      && Distinct(cst.unknowns)
      && Targets(unk, cst.unknowns) == UnknownsAmong(b, Seen(p, n))
      && |cst.unknowns| == |UnknownsAmong(b, Seen(p, n))|
      && |FlagsAmong(b, Seen(p, n))| + |UnknownsAmong(b, Seen(p, n))|
         + |OutsideOf(b, Seen(p, n))| + |OthersAmong(b, Seen(p, n))| == n
    decreases n
  {
    if n == 0 {
      assert Seen(p, 0) == {};
      assert FlagsAmong(b, {}) == {} && UnknownsAmong(b, {}) == {};
      assert OutsideOf(b, {}) == {} && OthersAmong(b, {}) == {};
    } else {
      ScanAccounts(b, unk, p, n - 1);
      ScanStep(b, unk, p, n);
    }
  }

  /** Step 2: one constraint per clue cell, in row-major order. */
  function Extract(b: Board, unk: seq<Pos>): (cs: seq<Constraint>)
    requires WellFormed(b) && Listed(b, unk)
    ensures |cs| == |ClueCells(b)|
    ensures forall j :: 0 <= j < |cs| ==> cs[j].target >= 0 && cs[j].target == At(b, ClueCells(b)[j])
    ensures forall j, i :: 0 <= j < |cs| && i in cs[j].unknowns ==> i < |unk|
  {
    var clues := ClueCells(b);
    seq(|clues|, j requires 0 <= j < |clues| => Scan(b, unk, clues[j], 8))
  }

  /**
   * The constraint of a clue cell: its flagged neighbours, its unknown
   * neighbours (each listed once), its off-board offsets, and the other
   * in-bounds neighbours together account for the eight positions around it.
   */
  lemma ClueConstraint(b: Board, j: int)
    requires WellFormed(b) && 0 <= j < |ClueCells(b)|
    ensures var unk := UnknownPositions(b);
      var p := ClueCells(b)[j];
      var cst := Extract(b, unk)[j];
      && cst.target == At(b, p) >= 0
      && cst.knownMines == |FlagsAmong(b, Around(p))|
      && Distinct(cst.unknowns)
      && Targets(unk, cst.unknowns) == UnknownsAmong(b, Around(p))
      && |cst.unknowns| == |UnknownsAmong(b, Around(p))|
      && cst.missing == |OutsideOf(b, Around(p))|
      && cst.knownMines + |cst.unknowns| + cst.missing + |OthersAmong(b, Around(p))| == 8
  {
    var unk := UnknownPositions(b);
    var p := ClueCells(b)[j];
    assert p in ClueCells(b);
    ScanAccounts(b, unk, p, 8);
  }
}

=== FILE: geometry.dfy ===
/**
 * The 8-neighbourhood shared by the solver and the square grid.
 *
 * Both Go loops walk the offsets dr, dc in -1..1 (outer dr, inner dc) and
 * skip (0, 0); Offsets lists them in that order. Adjacent is the
 * independent description: Chebyshev distance exactly 1.
 */
module Geometry {

  type Pos = (int, int)

  const Offsets: seq<(int, int)> :=
    [(-1, -1), (-1, 0), (-1, 1), (0, -1), (0, 1), (1, -1), (1, 0), (1, 1)]

  function Abs(x: int): nat {
    if x < 0 then -x else x
  }

  /** Chebyshev distance between two positions. */
  function Distance(p: Pos, q: Pos): nat {
    var dr := Abs(q.0 - p.0);
    var dc := Abs(q.1 - p.1);
    if dr < dc then dc else dr
  }

  predicate Adjacent(p: Pos, q: Pos) {
    Distance(p, q) == 1
  }

  /** The k-th neighbour offset applied to p. */
  function Shift(p: Pos, k: int): Pos
    requires 0 <= k < 8
  {
    (p.0 + Offsets[k].0, p.1 + Offsets[k].1)
  }

  /** The positions reached by the first n offsets. */
  function Seen(p: Pos, n: int): set<Pos>
    requires 0 <= n <= 8
  {
    set k | 0 <= k < n :: Shift(p, k)
  }

  /** The eight positions around p, in or out of any board. */
  function Around(p: Pos): set<Pos> {
    Seen(p, 8)
  }

  lemma AdjacentSymmetric(p: Pos, q: Pos)
    ensures Adjacent(p, q) <==> Adjacent(q, p)
  {
  }

  lemma ShiftAdjacent(p: Pos, k: int)
    requires 0 <= k < 8
    ensures Adjacent(p, Shift(p, k))
  {
  }

  /** Every position around p is reached by exactly one offset. */
  lemma ShiftCovers(p: Pos, q: Pos) returns (k: int)
    requires Adjacent(p, q)
    ensures 0 <= k < 8 && Shift(p, k) == q
  {
    var dr, dc := q.0 - p.0, q.1 - p.1;
    k := if dr == -1 then 1 + dc else if dr == 0 then (if dc == -1 then 3 else 4) else 6 + dc;
  }

  lemma ShiftInjective(p: Pos, j: int, k: int)
    requires 0 <= j < 8 && 0 <= k < 8
    requires Shift(p, j) == Shift(p, k)
    ensures j == k
  {
  }

  lemma SeenStep(p: Pos, n: int)
    requires 0 <= n < 8
    ensures Shift(p, n) !in Seen(p, n)
    ensures Seen(p, n + 1) == Seen(p, n) + {Shift(p, n)}
    ensures |Seen(p, n + 1)| == |Seen(p, n)| + 1
  {
    if Shift(p, n) in Seen(p, n) {
      var k :| 0 <= k < n && Shift(p, k) == Shift(p, n);
      ShiftInjective(p, k, n);
    }
  }

  lemma {:induction false} SeenSize(p: Pos, n: int)
    requires 0 <= n <= 8
    ensures |Seen(p, n)| == n
    decreases n
  {
    if n == 0 {
      assert Seen(p, 0) == {};
    } else {
      SeenSize(p, n - 1);
      SeenStep(p, n - 1);
    }
  }

  /** The offsets reach exactly the positions at distance 1. */
  lemma AroundIsAdjacent(p: Pos, q: Pos)
    ensures q in Around(p) <==> Adjacent(p, q)
  {
    if Adjacent(p, q) {
      var k := ShiftCovers(p, q);
    }
    if q in Around(p) {
      var k :| 0 <= k < 8 && Shift(p, k) == q;
      ShiftAdjacent(p, k);
    }
  }

  lemma AroundSize(p: Pos)
    ensures |Around(p)| == 8
  {
    SeenSize(p, 8);
  }
}

=== FILE: grid.dfy ===
/**
 * The square board container of the terminal tool: a side length and
 * size x size cell states, created all-unknown, resized in place keeping
 * the top-left overlap, and queried for the in-bounds 8-neighbourhood.
 * The per-cell probability field of the Go struct is not used by the
 * solver and is not modelled; a cell is its state.
 */
module Grid {
  import opened Cells
  import opened Geometry
  import opened Sequences

  datatype Grid = Grid(size: int, cells: seq<seq<int>>)

  predicate WellFormed(g: Grid) {
    && g.size >= 0
    && |g.cells| == g.size
    && forall r :: 0 <= r < |g.cells| ==> |g.cells[r]| == g.size
  }

  predicate InSquare(size: int, q: Pos) {
    0 <= q.0 < size && 0 <= q.1 < size
  }

  /** NewGrid: an n x n board of unknown cells. */
  function NewGrid(n: nat): (g: Grid)
    ensures WellFormed(g) && g.size == n
    ensures forall r, c :: 0 <= r < n && 0 <= c < n ==> g.cells[r][c] == Unknown
  {
    Grid(n, seq(n, _ => seq(n, _ => Unknown)))
  }

  /** Resize: the cell of the old board where both coordinates fit, unknown elsewhere. */
  function Resize(g: Grid, n: nat): (h: Grid)
    requires WellFormed(g)
    ensures WellFormed(h) && h.size == n
    ensures forall r, c :: 0 <= r < n && 0 <= c < n && r < g.size && c < g.size ==>
              h.cells[r][c] == g.cells[r][c]
    ensures forall r, c :: 0 <= r < n && 0 <= c < n && !(r < g.size && c < g.size) ==>
              h.cells[r][c] == Unknown
  {
    Grid(n, seq(n, r requires 0 <= r < n =>
                  seq(n, c requires 0 <= c < n =>
                        if r < g.size && c < g.size then g.cells[r][c] else Unknown)))
  }

  /** Growing by k and shrinking back restores the board. */
  lemma ResizeGrowShrink(g: Grid, k: nat)
    requires WellFormed(g)
    ensures Resize(Resize(g, g.size + k), g.size) == g
  {
    var h := Resize(Resize(g, g.size + k), g.size);
    assert forall r :: 0 <= r < g.size ==> h.cells[r] == g.cells[r];
  }

  /** Resizing to the current size changes nothing. */
  lemma ResizeSameSize(g: Grid)
    requires WellFormed(g)
    ensures Resize(g, g.size) == g
  {
    var h := Resize(g, g.size);
    assert forall r :: 0 <= r < g.size ==> h.cells[r] == g.cells[r];
  }

  /** The neighbours reached by offsets k..7, in the Go loop's order. */
  function NeighborsFrom(size: int, p: Pos, k: int): (ns: seq<Pos>)
    requires 0 <= k <= 8
    ensures |ns| <= 8 - k && Distinct(ns)
    ensures forall i :: 0 <= i < |ns| ==>
              InSquare(size, ns[i]) && exists j :: k <= j < 8 && ns[i] == Shift(p, j)
    ensures forall j :: k <= j < 8 && InSquare(size, Shift(p, j)) ==> Shift(p, j) in ns
    ensures (forall j :: k <= j < 8 ==> InSquare(size, Shift(p, j))) ==> |ns| == 8 - k
    decreases 8 - k
  {
    if k == 8 then []
    else
      var rest := NeighborsFrom(size, p, k + 1);
      var q := Shift(p, k);
      if InSquare(size, q) then
        assert forall i :: 0 <= i < |rest| ==> rest[i] != q by {
          forall i | 0 <= i < |rest|
            ensures rest[i] != q
          {
            var j :| k + 1 <= j < 8 && rest[i] == Shift(p, j);
            if rest[i] == q {
              ShiftInjective(p, j, k);
            }
          }
        }
        [q] + rest
      else rest
  }

  /** GetNeighbors: the in-bounds positions at distance 1 from (r, c). */
  function GetNeighbors(g: Grid, r: int, c: int): (ns: seq<Pos>)
    ensures |ns| <= 8 && Distinct(ns)
    ensures forall q :: q in ns <==> InSquare(g.size, q) && Adjacent((r, c), q)
    ensures 1 <= r < g.size - 1 && 1 <= c < g.size - 1 ==> |ns| == 8
  {
    var ns := NeighborsFrom(g.size, (r, c), 0);
    NeighborMembership(g.size, (r, c), ns);
    if 1 <= r < g.size - 1 && 1 <= c < g.size - 1 then
      InteriorShifts(g.size, (r, c));
      ns
    else ns
  }

  lemma NeighborMembership(size: int, p: Pos, ns: seq<Pos>)
    requires ns == NeighborsFrom(size, p, 0)
    ensures forall q :: q in ns <==> InSquare(size, q) && Adjacent(p, q)
  {
    forall q
      ensures q in ns <==> InSquare(size, q) && Adjacent(p, q)
    {
      if q in ns {
        var i :| 0 <= i < |ns| && ns[i] == q;
        var j :| 0 <= j < 8 && q == Shift(p, j);
        ShiftAdjacent(p, j);
      }
      if InSquare(size, q) && Adjacent(p, q) {
        var j := ShiftCovers(p, q);
      }
    }
  }

  lemma InteriorShifts(size: int, p: Pos)
    requires 1 <= p.0 < size - 1 && 1 <= p.1 < size - 1
    ensures forall j :: 0 <= j < 8 ==> InSquare(size, Shift(p, j))
  {
  }

  /** Every listed neighbour is in bounds and is not the cell itself. */
  lemma NeighborsExcludeSelf(g: Grid, r: int, c: int)
    ensures (r, c) !in GetNeighbors(g, r, c)
    ensures forall q :: q in GetNeighbors(g, r, c) ==> InSquare(g.size, q) && Distance((r, c), q) == 1
  {
  }

  /** Neighbourhood is symmetric among in-bounds cells. */
  lemma NeighborsSymmetric(g: Grid, p: Pos, q: Pos)
    requires InSquare(g.size, p) && InSquare(g.size, q)
    ensures q in GetNeighbors(g, p.0, p.1) <==> p in GetNeighbors(g, q.0, q.1)
  {
    var there := GetNeighbors(g, p.0, p.1);
    var back := GetNeighbors(g, q.0, q.1);
    assert q in there <==> InSquare(g.size, q) && Adjacent(p, q);
    assert p in back <==> Adjacent(q, p);
    AdjacentSymmetric(p, q);
  }
}

=== FILE: options.dfy ===
/** A value that may be absent: the result of a parse that can fail. */
module Options {

  datatype Option<+T> = None | Some(value: T)
}

=== FILE: search.dfy ===
/**
 * Steps 4 and 5 of Solve: the pruning predicate isPossible and the
 * depth-first enumeration over the K constrained variables.
 *
 * The Go code keeps the assignment in one array of length K that it
 * overwrites along the way; at depth d only its first d entries have been
 * set on the current path and only those are ever read. The model passes
 * exactly that prefix, `path`, with |path| == d. The shared counters
 * (valid leaves, per-variable mine counts, node visits) are threaded
 * through the recursion as a value, and the visit cap is a parameter.
 */
module Search {
  import opened Extraction
  import opened Compaction

  /** Listed variables that are decided (index < d) and set to a mine. */
  function DecidedMines(ix: seq<nat>, mines: seq<bool>, d: int): nat
    requires 0 <= d <= |mines|
  {
    if |ix| == 0 then 0
    else (if ix[0] < d && mines[ix[0]] then 1 else 0) + DecidedMines(ix[1..], mines, d)
  }

  /** Listed variables not decided yet (index >= d). */
  function Undecided(ix: seq<nat>, d: int): nat {
    if |ix| == 0 then 0
    else (if ix[0] < d then 0 else 1) + Undecided(ix[1..], d)
  }

  /**
   * isPossible: can the constraint still be met once variables 0..d-1 are
   * fixed? Equivalently, the mines still needed lie between zero and what
   * the undecided variables and the off-board offsets can hold; the check
   * for a fully decided constraint adds nothing to the first two.
   */
  predicate IsPossible(c: Constraint, mines: seq<bool>, d: int)
    requires 0 <= d <= |mines|
    ensures IsPossible(c, mines, d) <==>
      0 <= c.target - (c.knownMines + DecidedMines(c.unknowns, mines, d))
        <= Undecided(c.unknowns, d) + c.missing
  {
    var placed := c.knownMines + DecidedMines(c.unknowns, mines, d);
    var undecided := Undecided(c.unknowns, d);
    if placed > c.target then false
    else if placed + undecided + c.missing < c.target then false
    else if undecided == 0 && (c.target - placed < 0 || c.target - placed > c.missing) then false
    else true
  }

  /** A full assignment meets a constraint: the remaining mines fit the off-board offsets. */
  predicate Satisfies(c: Constraint, a: seq<bool>) {
    0 <= c.target - (c.knownMines + DecidedMines(c.unknowns, a, |a|)) <= c.missing
  }

  /** Every constraint with at least one variable is met; the others are never checked. */
  predicate Valid(cs: seq<Constraint>, a: seq<bool>) {
    forall j :: 0 <= j < |cs| && |cs[j].unknowns| > 0 ==> Satisfies(cs[j], a)
  }

  /** uIdxToConstraints: for each variable, the constraints that list it. */
  ghost predicate WatchersExact(cs: seq<Constraint>, watch: seq<seq<nat>>, k: nat) {
    && |watch| == k
    && forall v: int, j: int :: 0 <= v < k && 0 <= j ==> (j in watch[v] <==> j < |cs| && v in cs[j].unknowns)
  }

  /** Adds constraint j to the list of each of its variables. */
  function Subscribe(watch: seq<seq<nat>>, ix: seq<nat>, j: nat): (w: seq<seq<nat>>)
    requires forall i :: i in ix ==> i < |watch|
    ensures |w| == |watch|
    ensures forall v, x :: 0 <= v < |w| ==> (x in w[v] <==> x in watch[v] || (x == j && v in ix))
    decreases |ix|
  {
    if |ix| == 0 then watch
    else
      assert ix[0] in ix;
      assert forall i :: i in ix[1..] ==> i in ix;
      Subscribe(watch[ix[0] := watch[ix[0]] + [j]], ix[1..], j)
  }

  function Watchers(cs: seq<Constraint>, k: nat): (watch: seq<seq<nat>>)
    requires IndicesBelow(cs, k)
    ensures WatchersExact(cs, watch, k)
  {
    if |cs| == 0 then seq(k, _ => [])
    else
      var last := |cs| - 1;
      assert IndicesBelow(cs[..last], k);
      var before := Watchers(cs[..last], k);
      var w := Subscribe(before, cs[last].unknowns, last);
      WatchersExtend(cs, before, w, k);
      w
  }

  lemma WatchersExtend(cs: seq<Constraint>, before: seq<seq<nat>>, w: seq<seq<nat>>, k: nat)
    requires |cs| > 0 && IndicesBelow(cs, k)
    requires WatchersExact(cs[..|cs| - 1], before, k)
    requires w == Subscribe(before, cs[|cs| - 1].unknowns, |cs| - 1)
    ensures WatchersExact(cs, w, k)
  {
    var last := |cs| - 1;
    var front := cs[..last];
    assert WatchersExact(front, before, k);
    forall v: int, j: int | 0 <= v < k && 0 <= j
      ensures j in w[v] <==> j < |cs| && v in cs[j].unknowns
    {
      WatcherAt(front, before, k, v, j);
      if j < last {
        assert front[j] == cs[j];
      }
    }
  }

  lemma WatcherAt(cs: seq<Constraint>, watch: seq<seq<nat>>, k: nat, v: int, j: int)
    requires WatchersExact(cs, watch, k) && 0 <= v < k && 0 <= j
    ensures j in watch[v] <==> j < |cs| && v in cs[j].unknowns
  {
  }

  /** Every constraint watching the variable just fixed is still possible. */
  predicate PrunePasses(cs: seq<Constraint>, ws: seq<nat>, path: seq<bool>, d: int)
    requires 0 <= d <= |path|
  {
    forall k :: 0 <= k < |ws| ==> ws[k] < |cs| && IsPossible(cs[ws[k]], path, d)
  }

  /** The running totals of the search. */
  datatype Counters = Counters(total: nat, counts: seq<nat>, visits: nat)

  /** A valid leaf: one more configuration, one more mine for every variable set. */
  function Leaf(st: Counters, path: seq<bool>): (r: Counters)
    requires |st.counts| == |path|
    ensures r.total == st.total + 1 && r.visits == st.visits && |r.counts| == |path|
    ensures forall i :: 0 <= i < |path| ==> r.counts[i] == st.counts[i] + (if path[i] then 1 else 0)
  {
    st.(total := st.total + 1,
        counts := seq(|path|, i requires 0 <= i < |path| => st.counts[i] + (if path[i] then 1 else 0)))
  }

  /** backtrack(d) with the first d choices in path. */
  function Backtrack(cs: seq<Constraint>, watch: seq<seq<nat>>, k: nat, d: nat, path: seq<bool>,
                     st: Counters, cap: nat): (r: Counters)
    requires d <= k && |path| == d && |watch| == k && |st.counts| == k
    ensures |r.counts| == k
    ensures r.visits > st.visits && r.total >= st.total
    ensures forall i :: 0 <= i < k ==>
              st.counts[i] <= r.counts[i] && r.counts[i] - st.counts[i] <= r.total - st.total
    decreases k - d
  {
    var st1 := st.(visits := st.visits + 1);
    if st1.visits > cap then st1
    else if d > 0 && !PrunePasses(cs, watch[d - 1], path, d) then st1
    else if d == k then Leaf(st1, path)
    else
      var s2 := Backtrack(cs, watch, k, d + 1, path + [false], st1, cap);
      Backtrack(cs, watch, k, d + 1, path + [true], s2, cap)
  }

  function Pow2(n: nat): (p: nat)
    ensures p >= 1
  {
    if n == 0 then 1 else 2 * Pow2(n - 1)
  }

  /** backtrack(d) is entered at most 2^(k-d+1) - 1 times: the nodes of a full binary tree. */
  lemma {:induction false} BacktrackVisits(cs: seq<Constraint>, watch: seq<seq<nat>>, k: nat, d: nat,
                                           path: seq<bool>, st: Counters, cap: nat)
    requires d <= k && |path| == d && |watch| == k && |st.counts| == k
    ensures Backtrack(cs, watch, k, d, path, st, cap).visits <= st.visits + Pow2(k - d + 1) - 1
    decreases k - d
  {
    var st1 := st.(visits := st.visits + 1);
    if st1.visits > cap || (d > 0 && !PrunePasses(cs, watch[d - 1], path, d)) || d == k {
      assert Pow2(k - d + 1) >= 2;
    } else {
      var s2 := Backtrack(cs, watch, k, d + 1, path + [false], st1, cap);
      BacktrackVisits(cs, watch, k, d + 1, path + [false], st1, cap);
      BacktrackVisits(cs, watch, k, d + 1, path + [true], s2, cap);
    }
  }

  lemma {:induction false} Pow2Monotone(m: nat, n: nat)
    requires m <= n
    ensures Pow2(m) <= Pow2(n)
    decreases n
  {
    if m < n {
      Pow2Monotone(m, n - 1);
    }
  }

  /** A search over at most 22 variables needs no cap above 2^23 - 1. */
  lemma SmallSearchFits(cs: seq<Constraint>, k: nat, cap: nat)
    requires IndicesBelow(cs, k) && k <= 22 && cap >= 8388607
    ensures Enumerate(cs, k, cap).visits <= cap
  {
    Pow2Monotone(k + 1, 23);
    assert Pow2(8) == 256;
    assert Pow2(16) == 65536;
    assert Pow2(23) == 8388608;
  }

  /** The number of full assignments extending p that are Valid: plain enumeration, no pruning, no cap. */
  function CountValid(cs: seq<Constraint>, k: nat, p: seq<bool>): nat
    requires |p| <= k
    decreases k - |p|
  {
    if |p| == k then (if Valid(cs, p) then 1 else 0)
    else CountValid(cs, k, p + [false]) + CountValid(cs, k, p + [true])
  }

  /** Of those, the ones that make variable i a mine. */
  function CountMines(cs: seq<Constraint>, k: nat, i: nat, p: seq<bool>): nat
    requires |p| <= k && i < k
    decreases k - |p|
  {
    if |p| == k then (if Valid(cs, p) && p[i] then 1 else 0)
    else CountMines(cs, k, i, p + [false]) + CountMines(cs, k, i, p + [true])
  }

  /** The reference counts: no more mine placements than valid assignments. */
  lemma {:induction false} MinesWithinValid(cs: seq<Constraint>, k: nat, i: nat, p: seq<bool>)
    requires |p| <= k && i < k
    ensures CountMines(cs, k, i, p) <= CountValid(cs, k, p)
    decreases k - |p|
  {
    if |p| < k {
      MinesWithinValid(cs, k, i, p + [false]);
      MinesWithinValid(cs, k, i, p + [true]);
    }
  }

  /** Only the decided prefix matters to the mine tally. */
  lemma {:induction false} DecidedPrefix(ix: seq<nat>, m1: seq<bool>, m2: seq<bool>, d: int)
    requires 0 <= d <= |m1| && d <= |m2| && m1[..d] == m2[..d]
    ensures DecidedMines(ix, m1, d) == DecidedMines(ix, m2, d)
    decreases |ix|
  {
    if |ix| > 0 {
      if ix[0] < d {
        assert m1[ix[0]] == m1[..d][ix[0]] && m2[ix[0]] == m2[..d][ix[0]];
      }
      DecidedPrefix(ix[1..], m1, m2, d);
    }
  }

  /** isPossible reads only the decided prefix of the assignment. */
  lemma PossiblePrefix(c: Constraint, m1: seq<bool>, m2: seq<bool>, d: int)
    requires 0 <= d <= |m1| && d <= |m2| && m1[..d] == m2[..d]
    ensures IsPossible(c, m1, d) == IsPossible(c, m2, d)
  {
    DecidedPrefix(c.unknowns, m1, m2, d);
  }

  /** Deciding the remaining variables adds between none and all of the undecided ones. */
  lemma {:induction false} DecidedBounds(ix: seq<nat>, a: seq<bool>, d: int)
    requires 0 <= d <= |a|
    ensures DecidedMines(ix, a, d) <= DecidedMines(ix, a, |a|)
    ensures DecidedMines(ix, a, |a|) <= DecidedMines(ix, a, d) + Undecided(ix, d)
    decreases |ix|
  {
    if |ix| > 0 {
      DecidedBounds(ix[1..], a, d);
    }
  }

  /** With every listed variable below d, nothing is left undecided. */
  lemma {:induction false} DecidedAll(ix: seq<nat>, a: seq<bool>, d: int)
    requires 0 <= d <= |a|
    requires forall v :: v in ix ==> v < d
    ensures DecidedMines(ix, a, d) == DecidedMines(ix, a, |a|)
    ensures Undecided(ix, d) == 0
    decreases |ix|
  {
    if |ix| > 0 {
      assert ix[0] in ix;
      assert forall v :: v in ix[1..] ==> v in ix;
      DecidedAll(ix[1..], a, d);
    }
  }

  /** A constraint met by a full assignment is possible at every depth along it. */
  lemma SatisfiedIsPossible(c: Constraint, a: seq<bool>, d: int)
    requires Satisfies(c, a) && 0 <= d <= |a|
    ensures IsPossible(c, a, d)
  {
    DecidedBounds(c.unknowns, a, d);
  }

  /** Once all its variables are decided, a possible constraint is met. */
  lemma ResolvedSatisfies(c: Constraint, a: seq<bool>, d: int)
    requires 0 <= d <= |a| && forall v :: v in c.unknowns ==> v < d
    requires IsPossible(c, a, d)
    ensures Satisfies(c, a)
  {
    DecidedAll(c.unknowns, a, d);
  }

  /** The pruning checks at depths 1..n all passed along path. */
  predicate Passed(cs: seq<Constraint>, watch: seq<seq<nat>>, path: seq<bool>, n: int)
    requires 0 <= n <= |path| && n <= |watch|
  {
    forall v :: 0 <= v < n ==> PrunePasses(cs, watch[v], path, v + 1)
  }

  lemma PassedExtend(cs: seq<Constraint>, watch: seq<seq<nat>>, path: seq<bool>, n: int, b: bool)
    requires 0 <= n <= |path| && n <= |watch|
    requires Passed(cs, watch, path, n)
    ensures Passed(cs, watch, path + [b], n)
  {
    var path' := path + [b];
    forall v | 0 <= v < n
      ensures PrunePasses(cs, watch[v], path', v + 1)
    {
      assert path'[..v + 1] == path[..v + 1];
      forall x | 0 <= x < |watch[v]|
        ensures IsPossible(cs[watch[v][x]], path', v + 1)
      {
        PossiblePrefix(cs[watch[v][x]], path, path', v + 1);
      }
    }
  }

  function MaxOf(ix: seq<nat>): (m: nat)
    requires |ix| > 0
    ensures m in ix && forall v :: v in ix ==> v <= m
  {
    if |ix| == 1 then ix[0]
    else
      var m := MaxOf(ix[1..]);
      assert forall v :: v in ix ==> v == ix[0] || v in ix[1..];
      if ix[0] < m then m else ix[0]
  }

  /**
   * A full assignment whose every pruning check passed is valid: each
   * constraint was checked at the depth where its last variable was fixed.
   */
  lemma LeafValid(cs: seq<Constraint>, watch: seq<seq<nat>>, k: nat, path: seq<bool>)
    requires IndicesBelow(cs, k) && WatchersExact(cs, watch, k) && |path| == k
    requires Passed(cs, watch, path, k)
    ensures Valid(cs, path)
  {
    forall j | 0 <= j < |cs| && |cs[j].unknowns| > 0
      ensures Satisfies(cs[j], path)
    {
      var m := MaxOf(cs[j].unknowns);
      WatcherAt(cs, watch, k, m, j);
      var x :| 0 <= x < |watch[m]| && watch[m][x] == j;
      assert PrunePasses(cs, watch[m], path, m + 1);
      ResolvedSatisfies(cs[j], path, m + 1);
    }
  }

  /** A valid full assignment passes every pruning check along the way. */
  lemma ValidPasses(cs: seq<Constraint>, watch: seq<seq<nat>>, k: nat, path: seq<bool>, n: int)
    requires WatchersExact(cs, watch, k) && |path| == k && 0 <= n <= k
    requires Valid(cs, path)
    ensures Passed(cs, watch, path, n)
  {
    forall v, x | 0 <= v < n && 0 <= x < |watch[v]|
      ensures watch[v][x] < |cs| && IsPossible(cs[watch[v][x]], path, v + 1)
    {
      var j := watch[v][x];
      WatcherAt(cs, watch, k, v, j);
      SatisfiedIsPossible(cs[j], path, v + 1);
    }
  }

  /** Once some constraint is impossible on a prefix, no extension of it is valid. */
  lemma {:induction false} DeadPrefix(cs: seq<Constraint>, k: nat, j: int, q: seq<bool>, p: seq<bool>)
    requires 0 <= j < |cs| && |cs[j].unknowns| > 0
    requires |q| <= |p| <= k && p[..|q|] == q
    requires !IsPossible(cs[j], q, |q|)
    ensures CountValid(cs, k, p) == 0
    decreases k - |p|
  {
    if |p| == k {
      if Valid(cs, p) {
        SatisfiedIsPossible(cs[j], p, |q|);
        PossiblePrefix(cs[j], p, q, |q|);
      }
    } else {
      assert (p + [false])[..|q|] == q && (p + [true])[..|q|] == q;
      DeadPrefix(cs, k, j, q, p + [false]);
      DeadPrefix(cs, k, j, q, p + [true]);
    }
  }

  /**
   * Soundness and completeness of the enumeration: unless the visit cap
   * was exceeded, backtrack(d) adds exactly the number of valid full
   * assignments extending path, and for each variable the number of those
   * that make it a mine.
   */
  lemma {:induction false} BacktrackExact(cs: seq<Constraint>, watch: seq<seq<nat>>, k: nat, d: nat,
                                          path: seq<bool>, st: Counters, cap: nat)
    requires d <= k && |path| == d && |st.counts| == k
    requires IndicesBelow(cs, k) && WatchersExact(cs, watch, k)
    requires d == 0 || Passed(cs, watch, path, d - 1)
    ensures var r := Backtrack(cs, watch, k, d, path, st, cap);
      r.visits <= cap ==>
        && r.total == st.total + CountValid(cs, k, path)
        && forall i :: 0 <= i < k ==> r.counts[i] == st.counts[i] + CountMines(cs, k, i, path)
    decreases k - d
  {
    var r := Backtrack(cs, watch, k, d, path, st, cap);
    var st1 := st.(visits := st.visits + 1);
    if st1.visits > cap {
    } else if d > 0 && !PrunePasses(cs, watch[d - 1], path, d) {
      var x :| 0 <= x < |watch[d - 1]| && !(watch[d - 1][x] < |cs| && IsPossible(cs[watch[d - 1][x]], path, d));
      var j := watch[d - 1][x];
      WatcherAt(cs, watch, k, d - 1, j);
      assert path[..d] == path;
      DeadPrefix(cs, k, j, path, path);
      forall i | 0 <= i < k
        ensures CountMines(cs, k, i, path) == 0
      {
        MinesWithinValid(cs, k, i, path);
      }
    } else {
      assert Passed(cs, watch, path, d);
      if d == k {
        LeafValid(cs, watch, k, path);
      } else {
        var s2 := Backtrack(cs, watch, k, d + 1, path + [false], st1, cap);
        PassedExtend(cs, watch, path, d, false);
        PassedExtend(cs, watch, path, d, true);
        BacktrackExact(cs, watch, k, d + 1, path + [false], st1, cap);
        BacktrackExact(cs, watch, k, d + 1, path + [true], s2, cap);
      }
    }
  }

  /** With no variable the search visits its root once and counts it as the one leaf. */
  lemma EmptySearch(cs: seq<Constraint>, cap: nat)
    requires IndicesBelow(cs, 0) && cap >= 1
    ensures Enumerate(cs, 0, cap).visits == 1 && Enumerate(cs, 0, cap).total == 1
  {
  }

  /**
   * Steps 4 and 5: backtrack(0) from zeroed counters. Unless the cap was
   * exceeded, the counters equal the plain enumeration of all 2^k
   * assignments; the cap can only be exceeded when the full search tree
   * has more than cap nodes.
   */
  function Enumerate(cs: seq<Constraint>, k: nat, cap: nat): (st: Counters)
    requires IndicesBelow(cs, k)
    ensures |st.counts| == k
    ensures forall i :: 0 <= i < k ==> st.counts[i] <= st.total
    ensures st.visits <= cap ==>
              && st.total == CountValid(cs, k, [])
              && forall i :: 0 <= i < k ==> st.counts[i] == CountMines(cs, k, i, [])
    ensures st.visits > cap ==> Pow2(k + 1) - 1 > cap
  {
    var watch := Watchers(cs, k);
    var start := Counters(0, seq(k, _ => 0), 0);
    BacktrackExact(cs, watch, k, 0, [], start, cap);
    BacktrackVisits(cs, watch, k, 0, [], start, cap);
    Backtrack(cs, watch, k, 0, [], start, cap)
  }
}

=== FILE: sequences.dfy ===
/** Small facts about sequences shared by the grid and solver modules. */
module Sequences {

  /** No element occurs twice. */
  predicate Distinct<T(==)>(s: seq<T>) {
    forall i, j :: 0 <= i < |s| && 0 <= j < |s| && i != j ==> s[i] != s[j]
  }

  /** Strictly increasing, hence also Distinct. */
  predicate Increasing(s: seq<int>) {
    forall i, j :: 0 <= i < j < |s| ==> s[i] < s[j]
  }

  lemma IncreasingIsDistinct(s: seq<int>)
    requires Increasing(s)
    ensures Distinct(s)
  {
    forall i, j | 0 <= i < |s| && 0 <= j < |s| && i != j
      ensures s[i] != s[j]
    {
      if i < j {
        assert s[i] < s[j];
      } else {
        assert s[j] < s[i];
      }
    }
  }

  function Elements<T>(s: seq<T>): set<T> {
    set x | x in s
  }

  /** The elements of a sequence without repeats number exactly its length. */
  lemma {:induction false} DistinctCardinality<T>(s: seq<T>)
    requires Distinct(s)
    ensures |Elements(s)| == |s|
  {
    if |s| > 0 {
      var t := s[..|s| - 1];
      assert Distinct(t);
      DistinctCardinality(t);
      assert Elements(s) == Elements(t) + {s[|s| - 1]};
      assert s[|s| - 1] !in t;
    } else {
      assert Elements(s) == {};
    }
  }
}

=== FILE: solver.dfy ===
/**
 * Solve: the whole pipeline from a board to one exact probability per
 * cell, plus the Solvable and Timeout flags.
 *
 * Probabilities are exact rationals (`real`): mineCounts[i] / total for a
 * constrained unknown, 1/2 for an unknown in no constraint, 0 for every
 * other cell. The node-visit cap is a parameter; the Go program fixes it
 * at MaxIterations.
 */
module Solver {
  import opened Cells
  import opened Geometry
  import opened Sequences
  import opened Extraction
  import opened Compaction
  import opened Search

  const MaxIterations: nat := 10000000

  datatype Result = Result(probabilities: seq<seq<real>>, solvable: bool, timeout: bool)

  /** Everything Solve computes before it writes the probabilities. */
  datatype Analysis = Analysis(
    unknowns: seq<Pos>,            // unknownPos
    flags: seq<bool>,              // isConstrained
    order: seq<nat>,               // constrainedToOriginal
    constraints: seq<Constraint>,  // rewritten to the dense numbering
    k: nat,                        // constrainedCount
    search: Counters               // totalValidConfigs, mineCounts, iterations
  )

  /** The facts about an analysis that step 6 relies on. */
  predicate Coherent(a: Analysis) {
    && |a.flags| == |a.unknowns|
    && a.order == Compact(a.flags) && a.k == |a.order|
    && |a.search.counts| == a.k
    && forall i :: 0 <= i < a.k ==> a.search.counts[i] <= a.search.total
  }

  /** Steps 1-5 of Solve. */
  function Analyze(b: Board, cap: nat): (a: Analysis)
    requires WellFormed(b)
    ensures a.unknowns == UnknownPositions(b)
    ensures |a.flags| == |a.unknowns|
    ensures forall i :: 0 <= i < |a.flags| ==> (a.flags[i] <==> Mentioned(Extract(b, a.unknowns), i))
    ensures a.order == Compact(a.flags) && a.k == |a.order|
    ensures IndicesBelow(a.constraints, a.k)
    ensures a.constraints == Reduce(Extract(b, a.unknowns), |a.unknowns|).constraints
    ensures a.search == Enumerate(a.constraints, a.k, cap)
    ensures Coherent(a)
  {
    var unk := UnknownPositions(b);
    var red := Reduce(Extract(b, unk), |unk|);
    var k := |red.order|;
    Analysis(unk, red.flags, red.order, red.constraints, k, Enumerate(red.constraints, k, cap))
  }

  /** The dense number of constrained unknown j. */
  function DenseOf(a: Analysis, j: int): nat
    requires 0 <= j < |a.flags|
  {
    Rank(a.flags, j)
  }

  predicate Shaped(g: seq<seq<real>>, rows: nat, cols: nat) {
    |g| == rows && forall r :: 0 <= r < |g| ==> |g[r]| == cols
  }

  /** Writes v at p. */
  function Put(g: seq<seq<real>>, p: Pos, v: real): (h: seq<seq<real>>)
    requires 0 <= p.0 < |g| && 0 <= p.1 < |g[p.0]|
    ensures |h| == |g| && forall r :: 0 <= r < |g| ==> |h[r]| == |g[r]|
    ensures forall r, c :: 0 <= r < |g| && 0 <= c < |g[r]| ==>
              h[r][c] == if (r, c) == p then v else g[r][c]
  {
    g[p.0 := g[p.0][p.1 := v]]
  }

  function Ratio(count: nat, total: nat): (q: real)
    requires 0 < total && count <= total
    ensures 0.0 <= q <= 1.0
  {
    count as real / total as real
  }

  /**
   * The probability step 6 leaves at the cell of unknown j: 0 when no
   * valid configuration was counted, the mine ratio of its dense number
   * when it is constrained, 1/2 otherwise.
   */
  function Expected(a: Analysis): (vals: seq<real>)
    requires Coherent(a)
    ensures |vals| == |a.unknowns|
    ensures forall j :: 0 <= j < |vals| ==> 0.0 <= vals[j] <= 1.0
  {
    seq(|a.unknowns|, j requires 0 <= j < |a.unknowns| =>
      if a.search.total == 0 then 0.0
      else if a.flags[j] then Ratio(a.search.counts[DenseOf(a, j)], a.search.total)
      else 0.5)
  }

  /**
   * With no constrained unknown the search has one leaf, the empty
   * assignment, and every unknown gets 1/2.
   */
  lemma NoConstrainedUnknowns(b: Board, cap: nat)
    requires WellFormed(b) && cap >= 1
    requires Analyze(b, cap).k == 0
    ensures Analyze(b, cap).search.total == 1
    ensures forall j :: 0 <= j < |Analyze(b, cap).unknowns| ==> Expected(Analyze(b, cap))[j] == 0.5
  {
    var a := Analyze(b, cap);
    EmptySearch(a.constraints, cap);
    forall j | 0 <= j < |a.unknowns|
      ensures !a.flags[j]
    {
      if a.flags[j] {
        DenseInverse(a.flags);
      }
    }
  }

  /**
   * With the program's own cap, a board with at most 22 constrained unknowns
   * never times out: its search tree has at most 2^23 - 1 nodes.
   */
  lemma NoTimeoutUpTo22(b: Board)
    requires WellFormed(b)
    ensures var a := Analyze(b, MaxIterations);
      a.k <= 22 ==> a.search.visits <= MaxIterations
  {
    var a := Analyze(b, MaxIterations);
    if a.k <= 22 {
      SmallSearchFits(a.constraints, a.k, MaxIterations);
    }
  }

  /**
   * Solve. The input board is a value and is never changed. Cells that are
   * not unknown keep probability 0; the cell of every unknown holds its
   * Expected value.
   */
  method Solve(b: Board, cap: nat) returns (res: Result)
    requires WellFormed(b)
    ensures Shaped(res.probabilities, b.rows, b.cols)
    ensures forall r, c :: 0 <= r < b.rows && 0 <= c < b.cols ==>
              0.0 <= res.probabilities[r][c] <= 1.0
    ensures forall r, c :: 0 <= r < b.rows && 0 <= c < b.cols && b.cells[r][c] != Unknown ==>
              res.probabilities[r][c] == 0.0
    ensures var a := Analyze(b, cap);
      && (|a.unknowns| == 0 ==> res.solvable && !res.timeout)
      && (|a.unknowns| > 0 ==> (res.timeout <==> a.search.visits > cap))
      && (|a.unknowns| > 0 ==> (res.solvable <==> a.search.visits <= cap && a.search.total > 0))
      && (res.timeout ==> Pow2(a.k + 1) - 1 > cap)
    ensures var a := Analyze(b, cap);
      HoldsAt(a.unknowns, res.probabilities, Expected(a))
  {
    var a := Analyze(b, cap);
    var probs := Aggregate(b, a);
    if |a.unknowns| == 0 {
      return Result(probs, true, false);
    }
    var solvable := true;
    var timeout := false;
    if a.search.visits > cap {
      solvable := false;
      timeout := true;
    }
    if a.search.total == 0 {
      solvable := false;
    }
    res := Result(probs, solvable, timeout);
  }

  /**
   * Step 6: the ratio of each constrained unknown and 1/2 for every other
   * unknown when a valid configuration was counted, 0 everywhere else.
   */
  method Aggregate(b: Board, a: Analysis) returns (probs: seq<seq<real>>)
    requires WellFormed(b) && a.unknowns == UnknownPositions(b) && Coherent(a)
    ensures Shaped(probs, b.rows, b.cols) && ZeroElsewhere(b, probs)
    ensures HoldsAt(a.unknowns, probs, Expected(a))
    ensures forall r, c :: 0 <= r < b.rows && 0 <= c < b.cols ==> 0.0 <= probs[r][c] <= 1.0
  {
    var zeros := seq(b.rows, _ => seq(b.cols, _ => 0.0));
    if a.search.total > 0 {
      var filled := FillConstrained(b, a, zeros);
      probs := FillFree(b, a, filled, Written(a, |a.order|));
      FilledIsExpected(a);
    } else {
      probs := zeros;
      ZerosHold(b, zeros, Expected(a));
    }
    ProbabilitiesInRange(b, a, probs, Expected(a));
  }

  /** After both loops of step 6 the board holds Expected at every unknown. */
  lemma FilledIsExpected(a: Analysis)
    requires Coherent(a) && a.search.total > 0
    ensures seq(|a.unknowns|, j requires 0 <= j < |a.unknowns| =>
              if a.flags[j] then Written(a, |a.order|)[j] else 0.5) == Expected(a)
  {
    forall j | 0 <= j < |a.unknowns| && a.flags[j]
      ensures DenseOf(a, j) < |a.order|
    {
      assert Rank(a.flags, j) < |Compact(a.flags)|;
    }
  }

  /**
   * When the search ran to completion, each constrained unknown's value is
   * the fraction of valid assignments of the constrained unknowns, over all
   * constraints that mention an unknown, that put a mine on it; each
   * unconstrained unknown gets 1/2; a board with no valid assignment gets 0
   * everywhere.
   */
  lemma ExpectedIsExact(b: Board, cap: nat)
    requires WellFormed(b)
    ensures var a := Analyze(b, cap);
      a.search.visits <= cap ==>
      forall j :: 0 <= j < |a.unknowns| ==>
        && (CountValid(a.constraints, a.k, []) == 0 ==> Expected(a)[j] == 0.0)
        && (CountValid(a.constraints, a.k, []) > 0 && !a.flags[j] ==> Expected(a)[j] == 0.5)
        && (CountValid(a.constraints, a.k, []) > 0 && a.flags[j] ==>
              && DenseOf(a, j) < a.k
              && Expected(a)[j] == Ratio(CountMines(a.constraints, a.k, DenseOf(a, j), []),
                                         CountValid(a.constraints, a.k, [])))
  {
    var a := Analyze(b, cap);
    forall j | 0 <= j < |a.unknowns| && a.flags[j]
      ensures DenseOf(a, j) < a.k
    {
      assert Rank(a.flags, j) < |Compact(a.flags)|;
    }
  }

  /** Cells that are not unknown hold 0. */
  predicate ZeroElsewhere(b: Board, g: seq<seq<real>>)
    requires WellFormed(b) && Shaped(g, b.rows, b.cols)
  {
    forall r, c :: 0 <= r < b.rows && 0 <= c < b.cols && b.cells[r][c] != Unknown ==> g[r][c] == 0.0
  }

  /** The cell of unknown j holds vals[j]. */
  predicate HoldsAt(unk: seq<Pos>, g: seq<seq<real>>, vals: seq<real>) {
    && |vals| == |unk|
    && forall j :: 0 <= j < |unk| ==>
         0 <= unk[j].0 < |g| && 0 <= unk[j].1 < |g[unk[j].0]| && g[unk[j].0][unk[j].1] == vals[j]
  }

  /** Writing at the cell of unknown j0 changes only that unknown's entry. */
  lemma PutAtUnknown(b: Board, unk: seq<Pos>, g: seq<seq<real>>, vals: seq<real>, j0: int, v: real)
    requires WellFormed(b) && unk == UnknownPositions(b) && Shaped(g, b.rows, b.cols)
    requires HoldsAt(unk, g, vals) && ZeroElsewhere(b, g) && 0 <= j0 < |unk|
    ensures Shaped(Put(g, unk[j0], v), b.rows, b.cols)
    ensures HoldsAt(unk, Put(g, unk[j0], v), vals[j0 := v])
    ensures ZeroElsewhere(b, Put(g, unk[j0], v))
  {
    assert unk[j0] in unk;
    var h := Put(g, unk[j0], v);
    forall j | 0 <= j < |unk| && j != j0
      ensures h[unk[j].0][unk[j].1] == vals[j]
    {
      assert unk[j] != unk[j0];
    }
  }

  /** The entries after the first i ratios have been written. */
  function Written(a: Analysis, i: int): (vals: seq<real>)
    requires |a.flags| == |a.unknowns| && a.order == Compact(a.flags)
    requires |a.search.counts| == |a.order| && a.search.total > 0
    requires forall x :: 0 <= x < |a.order| ==> a.search.counts[x] <= a.search.total
  {
    seq(|a.unknowns|, j requires 0 <= j < |a.unknowns| =>
      if a.flags[j] && Rank(a.flags, j) < i then Ratio(a.search.counts[Rank(a.flags, j)], a.search.total)
      else 0.0)
  }

  /** Writing ratio i fills exactly the entry of constrainedToOriginal[i]. */
  lemma WrittenStep(a: Analysis, i: int)
    requires |a.flags| == |a.unknowns| && a.order == Compact(a.flags)
    requires |a.search.counts| == |a.order| && a.search.total > 0
    requires forall x :: 0 <= x < |a.order| ==> a.search.counts[x] <= a.search.total
    requires 0 <= i < |a.order|
    ensures a.order[i] < |a.unknowns|
    ensures Written(a, i + 1) == Written(a, i)[a.order[i] := Ratio(a.search.counts[i], a.search.total)]
  {
    DenseInverse(a.flags);
    var original := a.order[i];
    assert Rank(a.flags, original) == i;
    forall j | 0 <= j < |a.unknowns| && j != original && a.flags[j]
      ensures Rank(a.flags, j) != i
    {
      assert a.order[Rank(a.flags, j)] == j;
    }
  }

  /** A zero board holds zero at every unknown. */
  lemma ZerosHold(b: Board, zeros: seq<seq<real>>, vals: seq<real>)
    requires WellFormed(b) && Shaped(zeros, b.rows, b.cols)
    requires forall r, c :: 0 <= r < b.rows && 0 <= c < b.cols ==> zeros[r][c] == 0.0
    requires |vals| == |UnknownPositions(b)| && forall j :: 0 <= j < |vals| ==> vals[j] == 0.0
    ensures HoldsAt(UnknownPositions(b), zeros, vals) && ZeroElsewhere(b, zeros)
  {
    var unk := UnknownPositions(b);
    forall j | 0 <= j < |unk|
      ensures 0 <= unk[j].0 < b.rows && 0 <= unk[j].1 < b.cols
    {
      assert unk[j] in unk;
    }
  }

  /** Step 6, constrained unknowns: mineCounts[i] / totalValidConfigs at the cell of constrainedToOriginal[i]. */
  method FillConstrained(b: Board, a: Analysis, zeros: seq<seq<real>>) returns (probs: seq<seq<real>>)
    requires WellFormed(b) && a.unknowns == UnknownPositions(b)
    requires |a.flags| == |a.unknowns| && a.order == Compact(a.flags)
    requires |a.search.counts| == |a.order| && a.search.total > 0
    requires forall i :: 0 <= i < |a.order| ==> a.search.counts[i] <= a.search.total
    requires Shaped(zeros, b.rows, b.cols)
    requires forall r, c :: 0 <= r < b.rows && 0 <= c < b.cols ==> zeros[r][c] == 0.0
    ensures Shaped(probs, b.rows, b.cols) && ZeroElsewhere(b, probs)
    ensures HoldsAt(a.unknowns, probs, Written(a, |a.order|))
  {
    var unk := a.unknowns;
    ZerosHold(b, zeros, Written(a, 0));
    probs := zeros;
    var i := 0;
    while i < |a.order|
      invariant 0 <= i <= |a.order|
      invariant Shaped(probs, b.rows, b.cols) && ZeroElsewhere(b, probs)
      invariant HoldsAt(unk, probs, Written(a, i))
    {
      var original := a.order[i];
      WrittenStep(a, i);
      PutAtUnknown(b, unk, probs, Written(a, i), original, Ratio(a.search.counts[i], a.search.total));
      probs := Put(probs, unk[original], Ratio(a.search.counts[i], a.search.total));
      i := i + 1;
    }
  }

  /** Step 6, free unknowns: 1/2 at every unknown in no constraint. */
  method FillFree(b: Board, a: Analysis, given: seq<seq<real>>, ghost vals: seq<real>) returns (probs: seq<seq<real>>)
    requires WellFormed(b) && a.unknowns == UnknownPositions(b)
    requires |a.flags| == |a.unknowns|
    requires Shaped(given, b.rows, b.cols) && ZeroElsewhere(b, given)
    requires HoldsAt(a.unknowns, given, vals)
    ensures Shaped(probs, b.rows, b.cols) && ZeroElsewhere(b, probs)
    ensures HoldsAt(a.unknowns, probs,
                    seq(|vals|, j requires 0 <= j < |vals| => if a.flags[j] then vals[j] else 0.5))
  {
    var unk := a.unknowns;
    probs := given;
    var i := 0;
    while i < |a.flags|
      invariant 0 <= i <= |a.flags|
      invariant Shaped(probs, b.rows, b.cols) && ZeroElsewhere(b, probs)
      invariant HoldsAt(unk, probs,
                        seq(|vals|, j requires 0 <= j < |vals| => if a.flags[j] || i <= j then vals[j] else 0.5))
    {
      ghost var before := seq(|vals|, j requires 0 <= j < |vals| => if a.flags[j] || i <= j then vals[j] else 0.5);
      if !a.flags[i] {
        PutAtUnknown(b, unk, probs, before, i, 0.5);
        probs := Put(probs, unk[i], 0.5);
      }
      assert seq(|vals|, j requires 0 <= j < |vals| => if a.flags[j] || i + 1 <= j then vals[j] else 0.5)
          == if a.flags[i] then before else before[i := 0.5];
      i := i + 1;
    }
  }

  /** Every cell the aggregation can write holds a value in [0, 1]. */
  lemma ProbabilitiesInRange(b: Board, a: Analysis, probs: seq<seq<real>>, vals: seq<real>)
    requires WellFormed(b) && Shaped(probs, b.rows, b.cols)
    requires a.unknowns == UnknownPositions(b)
    requires ZeroElsewhere(b, probs) && HoldsAt(a.unknowns, probs, vals)
    requires forall j :: 0 <= j < |vals| ==> 0.0 <= vals[j] <= 1.0
    ensures forall r, c :: 0 <= r < b.rows && 0 <= c < b.cols ==> 0.0 <= probs[r][c] <= 1.0
  {
    forall r, c | 0 <= r < b.rows && 0 <= c < b.cols && b.cells[r][c] == Unknown
      ensures 0.0 <= probs[r][c] <= 1.0
    {
      assert (r, c) in a.unknowns;
      var j :| 0 <= j < |a.unknowns| && a.unknowns[j] == (r, c);
    }
  }

  /** The row `0 f u`: one unknown at column 2, one clue at column 0, and no constrained unknown. */
  lemma UncheckedClueShape(b: Board)
    requires b == Board(1, 3, [[0, Flag, Unknown]])
    ensures WellFormed(b)
    ensures UnknownPositions(b) == [(0, 2)]
    ensures ClueCells(b) == [(0, 0)]
    ensures !Mentioned(Extract(b, UnknownPositions(b)), 0)
  {
    var unk := UnknownPositions(b);
    assert (0, 2) in unk;
    assert Elements(unk) == {(0, 2)};
    DistinctCardinality(unk);
    var clues := ClueCells(b);
    assert (0, 0) in clues;
    assert Elements(clues) == {(0, 0)};
    DistinctCardinality(clues);
    ClueConstraint(b, 0);
    forall q | q in Around((0, 0))
      ensures q !in UnknownsAmong(b, Around((0, 0)))
    {
      AroundIsAdjacent((0, 0), q);
      assert q != (0, 2);
      assert q !in unk;
    }
    assert UnknownsAmong(b, Around((0, 0))) == {};
  }

  /**
   * A clue with no unknown neighbour is never checked: on the row
   * `0 f u` the clue 0 touches a flag, yet the search counts one valid
   * configuration and the unknown gets 1/2.
   */
  lemma UncheckedClue(cap: nat)
    requires cap >= 1
    ensures var b := Board(1, 3, [[0, Flag, Unknown]]);
      && WellFormed(b)
      && Analyze(b, cap).search.total == 1
      && |Analyze(b, cap).unknowns| == 1
      && Expected(Analyze(b, cap))[0] == 0.5
  {
    var b := Board(1, 3, [[0, Flag, Unknown]]);
    UncheckedClueShape(b);
    var a := Analyze(b, cap);
    assert !a.flags[0];
    CompactCount(a.flags);
    assert (set i: nat | i < |a.flags| && a.flags[i]) == {};
    assert a.k == 0;
    NoConstrainedUnknowns(b, cap);
  }
}

=== FILE: terminal.dfy ===
/**
 * The terminal front end's edits of the square board: one symbol per cell
 * (updateCell), the explicit `s c r v` command, the bare `c r v` form, the
 * whole-board batch, and the expand / shrink / empty commands.
 *
 * A command arrives as the whitespace-separated tokens of one trimmed
 * input line; reading the line, printing and the solver call that follows
 * every edit are left out.
 */
module Terminal {
  import opened Options
  import opened Cells
  import opened Grid

  /** The state a symbol names: u, f and e in either case, or a decimal 0..8. */
  function ParseToken(val: string): (v: Option<int>)
    ensures v.Some? ==> IsValidState(v.value)
    ensures v == Some(Unknown) <==> Lower(val) == "u"
    ensures v == Some(Flag) <==> Lower(val) == "f"
    ensures Lower(val) == "e" ==> v == Some(0)
    ensures v.Some? && IsClue(v.value) && Lower(val) != "e" ==> ParseInt(val) == v
    ensures ParseInt(val).Some? && IsClue(ParseInt(val).value) ==> v == ParseInt(val)
    ensures v.Some? <==>
              || Lower(val) == "u" || Lower(val) == "f" || Lower(val) == "e"
              || (ParseInt(val).Some? && IsClue(ParseInt(val).value))
  {
    // Atoi never accepts a letter: a word that lowers to u, f or e is no number.
    ParseIntIgnoresCase(val);
    var low := Lower(val);
    if low == "u" then Some(Unknown)
    else if low == "f" then Some(Flag)
    else if low == "e" then Some(0)
    else match ParseInt(val)
      case Some(n) => if 0 <= n <= 8 then Some(n) else None
      case None => None
  }

  /** A symbol and any re-casing of it name the same state. */
  lemma ParseTokenIgnoresCase(a: string, b: string)
    requires Lower(a) == Lower(b)
    ensures ParseToken(a) == ParseToken(b)
  {
    ParseIntIgnoresCase(a);
    ParseIntIgnoresCase(b);
  }

  /** The text CellState.String prints for a state is read back as that state. */
  lemma ParseTokenRoundTrip(s: int)
    requires IsValidState(s)
    ensures ParseToken(StateString(s)) == Some(s)
  {
    if IsClue(s) {
      IntRoundTrip(s);
      var t := StateString(s);
      assert Lower(t) == t;
    }
  }

  /** Atoi's other spellings of a clue are accepted too: a sign, or leading zeros. */
  lemma ParseTokenAtoiForms()
    ensures ParseToken("+3") == Some(3)
    ensures ParseToken("03") == Some(3)
    ensures ParseToken("-0") == Some(0)
    ensures ParseToken("9") == None && ParseToken("-1") == None
  {
    assert "+3"[1..] == "3" && "-0"[1..] == "0" && "-1"[1..] == "1";
    assert "03"[..1] == "0";
  }

  /** Writes v at row r, column c. */
  function SetCell(g: Grid, r: int, c: int, v: int): (h: Grid)
    requires WellFormed(g) && InSquare(g.size, (r, c))
    ensures WellFormed(h) && h.size == g.size
    ensures h.cells[r][c] == v
    ensures forall r', c' :: InSquare(g.size, (r', c')) && (r', c') != (r, c) ==>
              h.cells[r'][c'] == g.cells[r'][c']
  {
    Grid(g.size, g.cells[r := g.cells[r][c := v]])
  }

  /**
   * updateCell: true and the named state at (r, c) for a valid symbol;
   * false and the board untouched otherwise. The caller has checked the
   * coordinates.
   */
  function UpdateCell(g: Grid, r: int, c: int, val: string): (out: (bool, Grid))
    requires WellFormed(g) && InSquare(g.size, (r, c))
    ensures WellFormed(out.1) && out.1.size == g.size
    ensures out.0 <==> ParseToken(val).Some?
    ensures !out.0 ==> out.1 == g
    ensures out.0 ==> out.1.cells[r][c] == ParseToken(val).value
    ensures forall r', c' :: InSquare(g.size, (r', c')) && (r', c') != (r, c) ==>
              out.1.cells[r'][c'] == g.cells[r'][c']
  {
    match ParseToken(val)
    case Some(v) => (true, SetCell(g, r, c, v))
    case None => (false, g)
  }

  /** Writing a cell's own printed text back changes nothing. */
  lemma UpdateCellRoundTrip(g: Grid, r: int, c: int)
    requires WellFormed(g) && InSquare(g.size, (r, c)) && IsValidState(g.cells[r][c])
    ensures UpdateCell(g, r, c, StateString(g.cells[r][c])) == (true, g)
  {
    ParseTokenRoundTrip(g.cells[r][c]);
    assert g.cells[r][c := g.cells[r][c]] == g.cells[r];
    assert g.cells[r := g.cells[r]] == g.cells;
  }

  /**
   * A coordinate edit: column token, row token, symbol. It applies only
   * when both coordinates are decimal, both lie on the board and the symbol
   * is valid; otherwise the board is untouched.
   */
  function EditAt(g: Grid, col: string, row: string, val: string): (out: (bool, Grid))
    requires WellFormed(g)
    ensures WellFormed(out.1) && out.1.size == g.size
    ensures out.0 <==>
              && ParseInt(col).Some? && ParseInt(row).Some?
              && InSquare(g.size, (ParseInt(row).value, ParseInt(col).value))
              && ParseToken(val).Some?
    ensures !out.0 ==> out.1 == g
    ensures out.0 ==> out.1 == SetCell(g, ParseInt(row).value, ParseInt(col).value, ParseToken(val).value)
  {
    match (ParseInt(col), ParseInt(row))
    case (Some(c), Some(r)) =>
      if 0 <= c < g.size && 0 <= r < g.size then UpdateCell(g, r, c, val) else (false, g)
    case _ => (false, g)
  }

  /** `s c r v`: exactly four tokens, the column before the row. */
  function SetCommand(g: Grid, tokens: seq<string>): (out: (bool, Grid))
    requires WellFormed(g)
    ensures WellFormed(out.1) && out.1.size == g.size
    ensures out.0 ==> |tokens| == 4
    ensures !out.0 ==> out.1 == g
    ensures |tokens| == 4 ==> out == EditAt(g, tokens[1], tokens[2], tokens[3])
  {
    if |tokens| == 4 then EditAt(g, tokens[1], tokens[2], tokens[3]) else (false, g)
  }

  /** The number of leading tokens that are valid symbols. */
  function ValidPrefix(tokens: seq<string>): (m: nat)
    ensures m <= |tokens|
    ensures forall i :: 0 <= i < m ==> ParseToken(tokens[i]).Some?
    ensures m < |tokens| ==> ParseToken(tokens[m]).None?
  {
    if |tokens| == 0 || ParseToken(tokens[0]).None? then 0
    else 1 + ValidPrefix(tokens[1..])
  }

  /** a * n lies strictly between -n and n only for a == 0. */
  lemma MulBetween(a: int, n: int)
    requires n > 0 && -n < a * n < n
    ensures a == 0
  {
  }

  lemma NegativeFactor(a: int, n: int)
    requires n > 0 && a * n < 0
    ensures a < 0
  {
  }

  lemma MulNonnegative(a: int, n: int)
    requires a >= 0 && n >= 0
    ensures a * n >= 0
  {
  }

  /** Euclidean division undoes q * n + rm. */
  lemma DivMod(n: int, q: int, rm: int)
    requires n > 0 && 0 <= rm < n
    ensures (q * n + rm) / n == q && (q * n + rm) % n == rm
  {
    var x := q * n + rm;
    var q', r' := x / n, x % n;
    assert (q - q') * n == r' - rm;
    MulBetween(q - q', n);
  }

  /** Row r, column c is token r * size + c. */
  lemma CellIndex(size: int, r: int, c: int)
    requires 0 <= r < size && 0 <= c < size
    ensures 0 <= r * size + c < size * size
    ensures (r * size + c) / size == r && (r * size + c) % size == c
  {
    DivMod(size, r, c);
    MulNonnegative(size - 1 - r, size);
    MulNonnegative(r, size);
    assert (size - 1 - r) * size == size * size - size - r * size;
  }

  /** Token i is row i / size, column i % size, on the board. */
  lemma TokenCell(size: int, i: int)
    requires size > 0 && 0 <= i < size * size
    ensures 0 <= i / size < size && 0 <= i % size < size
    ensures (i / size) * size + i % size == i
  {
    var q := i / size;
    assert (q - size) * size == q * size - size * size;
    NegativeFactor(q - size, size);
  }

  /** The board after the first i tokens have been written. */
  function Prefix(g: Grid, tokens: seq<string>, i: int): (h: Grid)
    requires WellFormed(g) && |tokens| == g.size * g.size && 0 <= i <= ValidPrefix(tokens)
  {
    Grid(g.size, seq(g.size, r requires 0 <= r < g.size =>
                   seq(g.size, c requires 0 <= c < g.size =>
                     if r * g.size + c < i then ParseToken(tokens[r * g.size + c]).value
                     else g.cells[r][c])))
  }

  /**
   * The batch as a whole-board statement: token i belongs to row i / size,
   * column i % size; the tokens before the first invalid one are applied
   * and the rest of the board is untouched. Reports success when every
   * token is valid.
   */
  function Batch(g: Grid, tokens: seq<string>): (bool, Grid)
    requires WellFormed(g) && |tokens| == g.size * g.size
  {
    (ValidPrefix(tokens) == |tokens|, Prefix(g, tokens, ValidPrefix(tokens)))
  }

  /** Writing token i advances the prefix board by one cell. */
  lemma PrefixStep(g: Grid, tokens: seq<string>, i: int)
    requires WellFormed(g) && |tokens| == g.size * g.size && 0 <= i < ValidPrefix(tokens)
    ensures g.size > 0 && InSquare(g.size, (i / g.size, i % g.size))
    ensures UpdateCell(Prefix(g, tokens, i), i / g.size, i % g.size, tokens[i]) == (true, Prefix(g, tokens, i + 1))
  {
    var n := g.size;
    TokenCell(n, i);
    var h := Prefix(g, tokens, i);
    var h' := Prefix(g, tokens, i + 1);
    var u := UpdateCell(h, i / n, i % n, tokens[i]).1;
    forall r, c | 0 <= r < n && 0 <= c < n
      ensures u.cells[r][c] == h'.cells[r][c]
    {
      CellIndex(n, r, c);
      if (r, c) == (i / n, i % n) {
        assert r * n + c == i;
      } else {
        assert r * n + c != i;
      }
    }
    assert forall r :: 0 <= r < n ==> u.cells[r] == h'.cells[r];
    assert u.cells == h'.cells;
    assert ParseToken(tokens[i]).Some?;
  }

  /** No token has been written yet: the board as it was. */
  lemma PrefixZero(g: Grid, tokens: seq<string>)
    requires WellFormed(g) && |tokens| == g.size * g.size
    ensures Prefix(g, tokens, 0) == g
  {
    var n := g.size;
    var h := Prefix(g, tokens, 0);
    forall r, c | 0 <= r < n && 0 <= c < n
      ensures h.cells[r][c] == g.cells[r][c]
    {
      CellIndex(n, r, c);
    }
    assert forall r :: 0 <= r < n ==> h.cells[r] == g.cells[r];
  }

  /**
   * The row-major batch update of the terminal: one symbol per cell, stops
   * at the first invalid symbol and keeps what it already wrote.
   */
  method BatchUpdate(g: Grid, tokens: seq<string>) returns (ok: bool, h: Grid)
    requires WellFormed(g) && |tokens| == g.size * g.size
    ensures (ok, h) == Batch(g, tokens)
  {
    h := g;
    ok := true;
    var i := 0;
    PrefixZero(g, tokens);
    while i < |tokens|
      invariant 0 <= i <= ValidPrefix(tokens)
      invariant h == Prefix(g, tokens, i)
      invariant ok
    {
      if ParseToken(tokens[i]).None? {
        ok := false;
        break;
      }
      PrefixStep(g, tokens, i);
      var res := UpdateCell(h, i / g.size, i % g.size, tokens[i]);
      h := res.1;
      i := i + 1;
    }
  }

  /**
   * The batch writes token i on row i / size, column i % size for every
   * valid token before the first invalid one, leaves the cells of the later
   * tokens alone, and succeeds exactly when every token is valid.
   */
  lemma BatchPlacement(g: Grid, tokens: seq<string>)
    requires WellFormed(g) && |tokens| == g.size * g.size
    ensures var out := Batch(g, tokens);
      && WellFormed(out.1) && out.1.size == g.size
      && (out.0 <==> forall i :: 0 <= i < |tokens| ==> ParseToken(tokens[i]).Some?)
      && (forall i :: 0 <= i < ValidPrefix(tokens) ==>
            InSquare(g.size, (i / g.size, i % g.size)) &&
            out.1.cells[i / g.size][i % g.size] == ParseToken(tokens[i]).value)
      && (forall i :: ValidPrefix(tokens) <= i < |tokens| ==>
            InSquare(g.size, (i / g.size, i % g.size)) &&
            out.1.cells[i / g.size][i % g.size] == g.cells[i / g.size][i % g.size])
  {
    var n := g.size;
    var h := Batch(g, tokens).1;
    forall i | 0 <= i < |tokens|
      ensures InSquare(n, (i / n, i % n))
      ensures h.cells[i / n][i % n] ==
                if i < ValidPrefix(tokens) then ParseToken(tokens[i]).value else g.cells[i / n][i % n]
    {
      TokenCell(n, i);
    }
  }

  /** The printed text of the cell that token i addresses. */
  function TokenOf(g: Grid, i: int): string
    requires WellFormed(g) && 0 <= i < g.size * g.size
  {
    TokenCell(g.size, i);
    StateString(g.cells[i / g.size][i % g.size])
  }

  /** The whole board as one batch line: every cell's text, row by row. */
  function Transcript(g: Grid): (tokens: seq<string>)
    requires WellFormed(g)
    ensures |tokens| == g.size * g.size
  {
    seq(g.size * g.size, i requires 0 <= i < g.size * g.size => TokenOf(g, i))
  }

  lemma TokenOfCell(g: Grid, r: int, c: int)
    requires WellFormed(g) && InSquare(g.size, (r, c))
    ensures 0 <= r * g.size + c < g.size * g.size
    ensures TokenOf(g, r * g.size + c) == StateString(g.cells[r][c])
  {
    CellIndex(g.size, r, c);
  }

  /** Typing back the printed text of every cell, row by row, changes nothing. */
  lemma BatchRoundTrip(g: Grid)
    requires WellFormed(g)
    requires forall r, c :: 0 <= r < g.size && 0 <= c < g.size ==> IsValidState(g.cells[r][c])
    ensures Batch(g, Transcript(g)) == (true, g)
  {
    var n := g.size;
    var tokens := Transcript(g);
    forall i | 0 <= i < n * n
      ensures ParseToken(tokens[i]).Some?
    {
      TokenCell(n, i);
      ParseTokenRoundTrip(g.cells[i / n][i % n]);
    }
    assert ValidPrefix(tokens) == n * n;
    var h := Prefix(g, tokens, n * n);
    forall r, c | 0 <= r < n && 0 <= c < n
      ensures h.cells[r][c] == g.cells[r][c]
    {
      var k := r * n + c;
      TokenOfCell(g, r, c);
      ParseTokenRoundTrip(g.cells[r][c]);
      assert tokens[k] == StateString(g.cells[r][c]);
      assert h.cells[r][c] == ParseToken(tokens[k]).value;
    }
    assert forall r :: 0 <= r < n ==> h.cells[r] == g.cells[r];
    assert h == g;
    assert Batch(g, tokens) == (true, h);
  }

  /** expand: two more rows and columns, padded below and to the right. */
  function Expand(g: Grid): (h: Grid)
    requires WellFormed(g)
    ensures WellFormed(h) && h.size == g.size + 2
  {
    Resize(g, g.size + 2)
  }

  /** shrink: two fewer rows and columns, refused unless the size exceeds 2. */
  function Shrink(g: Grid): (out: (bool, Grid))
    requires WellFormed(g)
    ensures WellFormed(out.1)
    ensures out.0 <==> g.size > 2
    ensures out.0 ==> out.1.size == g.size - 2
    ensures !out.0 ==> out.1 == g
  {
    if g.size > 2 then (true, Resize(g, g.size - 2)) else (false, g)
  }

  /** Shrinking undoes expanding. */
  lemma ShrinkUndoesExpand(g: Grid)
    requires WellFormed(g) && g.size >= 1
    ensures Shrink(Expand(g)) == (true, g)
  {
    ResizeGrowShrink(g, 2);
  }

  /** empty: a board of the same size, every cell unknown. */
  function Empty(g: Grid): (h: Grid)
    requires WellFormed(g)
    ensures WellFormed(h) && h.size == g.size
    ensures forall r, c :: InSquare(h.size, (r, c)) ==> h.cells[r][c] == Unknown
  {
    NewGrid(g.size)
  }

  /** No board has three cells, so a three-token line is never a batch. */
  lemma SquareNotThree(n: int)
    ensures n * n != 3
  {
    var m := if n < 0 then -n else n;
    assert n * n == m * m;
    if m >= 2 {
      MulNonnegative(m - 2, m + 2);
      assert (m - 2) * (m + 2) == m * m - 4;
    } else {
      assert m == 0 || m == 1;
    }
  }

  /**
   * One input line, as the tokens of the trimmed line, in the order the
   * loop tries them: the three word commands, `s`, the bare `c r v` form,
   * and the batch when the count is size * size. Anything else leaves the
   * board as it is.
   */
  function Execute(g: Grid, tokens: seq<string>): (h: Grid)
    requires WellFormed(g)
    ensures WellFormed(h)
    ensures tokens != ["expand"] && tokens != ["shrink"] ==> h.size == g.size
    ensures g.size >= 1 ==> h.size >= 1
    ensures |tokens| !in {1, 3, 4, g.size * g.size} ==> h == g
    ensures tokens == ["expand"] ==> h == Expand(g)
    ensures tokens == ["shrink"] ==> h == Shrink(g).1
    ensures tokens == ["empty"] ==> h == Empty(g)
    ensures |tokens| > 0 && Lower(tokens[0]) == "s" ==> h == SetCommand(g, tokens).1
    ensures |tokens| == 3 && Lower(tokens[0]) != "s" ==>
              h == (if EditAt(g, tokens[0], tokens[1], tokens[2]).0 then EditAt(g, tokens[0], tokens[1], tokens[2]).1 else g)
    ensures && |tokens| == g.size * g.size && |tokens| > 0 && Lower(tokens[0]) != "s"
            && tokens != ["expand"] && tokens != ["shrink"] && tokens != ["empty"]
            ==> h == Batch(g, tokens).1
    ensures && tokens != ["expand"] && tokens != ["shrink"] && tokens != ["empty"]
            && (|tokens| == 0 || Lower(tokens[0]) != "s")
            && |tokens| != 3 && |tokens| != g.size * g.size
            ==> h == g
  {
    SquareNotThree(g.size);
    if tokens == ["expand"] then Expand(g)
    else if tokens == ["shrink"] then Shrink(g).1
    else if tokens == ["empty"] then Empty(g)
    else if |tokens| == 0 then g
    else if Lower(tokens[0]) == "s" then SetCommand(g, tokens).1
    else if |tokens| == 3 && EditAt(g, tokens[0], tokens[1], tokens[2]).0 then
      EditAt(g, tokens[0], tokens[1], tokens[2]).1
    else if |tokens| == g.size * g.size then Batch(g, tokens).1
    else g
  }
}

=== FILE: webgrid.dfy ===
/**
 * The browser front end's board: `rows`, `cols` and the row-major array of
 * cell states, with the row and column edits, the reset, the keyboard
 * mapping, the right-click flag toggle and the arrow-key focus moves.
 *
 * Only the states are modelled; the probability each cell object also
 * carries, and all rendering, are left out.
 */
module WebGrid {
  import opened Options
  import opened Cells
  import Terminal

  datatype Layout = Layout(rows: nat, cols: nat, cells: seq<int>)

  /** The array holds one state per cell of a rows x cols board. */
  predicate Consistent(l: Layout) {
    |l.cells| == l.rows * l.cols
  }

  /** The board the page starts with: 3 x 3, every cell unknown. */
  function Initial(): (l: Layout)
    ensures Consistent(l) && l.rows == 3 && l.cols == 3
    ensures forall i :: 0 <= i < |l.cells| ==> l.cells[i] == Unknown
  {
    Layout(3, 3, seq(9, _ => Unknown))
  }

  // ---- rows view of the row-major array ----

  function Flatten(rs: seq<seq<int>>): seq<int> {
    if |rs| == 0 then [] else rs[0] + Flatten(rs[1..])
  }

  predicate Rectangular(rs: seq<seq<int>>, w: nat) {
    forall i :: 0 <= i < |rs| ==> |rs[i]| == w
  }

  lemma {:induction false} FlattenLength(rs: seq<seq<int>>, w: nat)
    requires Rectangular(rs, w)
    ensures |Flatten(rs)| == |rs| * w
  {
    if |rs| > 0 {
      FlattenLength(rs[1..], w);
    }
  }

  lemma {:induction false} FlattenAppend(a: seq<seq<int>>, b: seq<seq<int>>)
    ensures Flatten(a + b) == Flatten(a) + Flatten(b)
  {
    if |a| > 0 {
      assert (a + b)[1..] == a[1..] + b;
      FlattenAppend(a[1..], b);
    } else {
      assert a + b == b;
    }
  }

  /** Cuts a row-major array into n rows of width w. */
  function Unflatten(cells: seq<int>, w: nat, n: nat): (rs: seq<seq<int>>)
    requires |cells| == n * w
    ensures |rs| == n && Rectangular(rs, w)
    ensures Flatten(rs) == cells
    decreases n
  {
    if n == 0 then []
    else
      var rest := Unflatten(cells[w..], w, n - 1);
      assert ([cells[..w]] + rest)[1..] == rest;
      [cells[..w]] + rest
  }

  /** Cutting a flattened board into its rows gives the rows back. */
  lemma {:induction false} UnflattenFlatten(rs: seq<seq<int>>, w: nat)
    requires Rectangular(rs, w)
    ensures |Flatten(rs)| == |rs| * w
    ensures Unflatten(Flatten(rs), w, |rs|) == rs
  {
    FlattenLength(rs, w);
    if |rs| > 0 {
      FlattenLength(rs[1..], w);
      UnflattenFlatten(rs[1..], w);
      assert Flatten(rs)[..w] == rs[0];
      assert Flatten(rs)[w..] == Flatten(rs[1..]);
      assert [rs[0]] + rs[1..] == rs;
    }
  }

  /** The rows of the board, top to bottom. */
  function Rows(l: Layout): (rs: seq<seq<int>>)
    requires Consistent(l)
    ensures |rs| == l.rows && Rectangular(rs, l.cols) && Flatten(rs) == l.cells
  {
    Unflatten(l.cells, l.cols, l.rows)
  }

  /** The layout whose rows are rs. */
  lemma RowsOf(rs: seq<seq<int>>, w: nat)
    requires Rectangular(rs, w)
    ensures Consistent(Layout(|rs|, w, Flatten(rs)))
    ensures Rows(Layout(|rs|, w, Flatten(rs))) == rs
  {
    UnflattenFlatten(rs, w);
  }

  function Blank(w: nat): seq<int> {
    seq(w, _ => Unknown)
  }

  // ---- rows ----

  /** addRow: a row of unknowns on top or at the bottom. */
  function AddRow(l: Layout, top: bool): (m: Layout)
    requires Consistent(l)
    ensures Consistent(m) && m.rows == l.rows + 1 && m.cols == l.cols
    ensures Rows(m) == if top then [Blank(l.cols)] + Rows(l) else Rows(l) + [Blank(l.cols)]
  {
    var rs := if top then [Blank(l.cols)] + Rows(l) else Rows(l) + [Blank(l.cols)];
    FlattenAppend(if top then [Blank(l.cols)] else Rows(l), if top then Rows(l) else [Blank(l.cols)]);
    assert Flatten([Blank(l.cols)]) == Blank(l.cols);
    RowsOf(rs, l.cols);
    Layout(l.rows + 1, l.cols, if top then Blank(l.cols) + l.cells else l.cells + Blank(l.cols))
  }

  /** removeRow: drops the top or bottom row; refused with a single row. */
  function RemoveRow(l: Layout, top: bool): (m: Layout)
    requires Consistent(l)
    ensures Consistent(m)
    ensures l.rows <= 1 ==> m == l
    ensures l.rows > 1 ==> (m.rows == l.rows - 1 && m.cols == l.cols &&
                            Rows(m) == if top then Rows(l)[1..] else Rows(l)[..l.rows - 1])
  {
    if l.rows <= 1 then l
    else
      var rs := Rows(l);
      var kept := if top then rs[1..] else rs[..l.rows - 1];
      FlattenLength(rs[..l.rows - 1], l.cols);
      assert rs == [rs[0]] + rs[1..] == rs[..l.rows - 1] + [rs[l.rows - 1]];
      FlattenAppend([rs[0]], rs[1..]);
      FlattenAppend(rs[..l.rows - 1], [rs[l.rows - 1]]);
      RowsOf(kept, l.cols);
      if top then Layout(l.rows - 1, l.cols, l.cells[l.cols..])
      else Layout(l.rows - 1, l.cols, l.cells[..(l.rows - 1) * l.cols])
  }

  /** Removing the row just added, on the same side, restores the board. */
  lemma RemoveRowUndoesAddRow(l: Layout, top: bool)
    requires Consistent(l) && l.rows >= 1
    ensures RemoveRow(AddRow(l, top), top) == l
  {
    var m := AddRow(l, top);
    RowsOf(Rows(l), l.cols);
    if top {
      assert Rows(m)[1..] == Rows(l);
    } else {
      assert Rows(m)[..m.rows - 1] == Rows(l);
    }
  }

  // ---- columns ----

  /** Each row gets an unknown cell on the left or on the right. */
  function Widen(rs: seq<seq<int>>, left: bool): (ws: seq<seq<int>>)
    ensures |ws| == |rs|
  {
    seq(|rs|, i requires 0 <= i < |rs| => if left then [Unknown] + rs[i] else rs[i] + [Unknown])
  }

  /** Each row loses its first or its last cell. */
  function Narrow(rs: seq<seq<int>>, left: bool): (ns: seq<seq<int>>)
    requires forall i :: 0 <= i < |rs| ==> |rs[i]| >= 1
    ensures |ns| == |rs|
  {
    seq(|rs|, i requires 0 <= i < |rs| => if left then rs[i][1..] else rs[i][..|rs[i]| - 1])
  }

  /** The board with an unknown column added on the left or the right. */
  function WithColumn(l: Layout, left: bool): (m: Layout)
    requires Consistent(l)
    ensures Consistent(m) && m.rows == l.rows && m.cols == l.cols + 1
    ensures Rows(m) == Widen(Rows(l), left)
  {
    RowsOf(Widen(Rows(l), left), l.cols + 1);
    Layout(l.rows, l.cols + 1, Flatten(Widen(Rows(l), left)))
  }

  /** The board without its first or last column; unchanged with a single column. */
  function WithoutColumn(l: Layout, left: bool): (m: Layout)
    requires Consistent(l)
    ensures Consistent(m)
    ensures l.cols <= 1 ==> m == l
    ensures l.cols > 1 ==> (m.rows == l.rows && m.cols == l.cols - 1 &&
                            Rows(m) == Narrow(Rows(l), left))
  {
    if l.cols <= 1 then l
    else
      RowsOf(Narrow(Rows(l), left), l.cols - 1);
      Layout(l.rows, l.cols - 1, Flatten(Narrow(Rows(l), left)))
  }

  /** Removing the column just added, on the same side, restores the board. */
  lemma WithoutColumnUndoesWithColumn(l: Layout, left: bool)
    requires Consistent(l) && l.cols >= 1
    ensures WithoutColumn(WithColumn(l, left), left) == l
  {
    var rs := Rows(l);
    var back := Narrow(Widen(rs, left), left);
    forall i | 0 <= i < |rs|
      ensures back[i] == rs[i]
    {
      if left {
        assert ([Unknown] + rs[i])[1..] == rs[i];
      } else {
        assert (rs[i] + [Unknown])[..|rs[i]|] == rs[i];
      }
    }
    assert back == rs;
  }

  /** Splitting off the first row of what is still to be processed. */
  lemma FlattenCons(rs: seq<seq<int>>, r: int)
    requires 0 <= r < |rs|
    ensures Flatten(rs[r..]) == rs[r] + Flatten(rs[r + 1..])
  {
    assert rs[r..][1..] == rs[r + 1..];
  }

  /** After r rows have been widened, the next row starts at r * (cols + 1). */
  lemma WidenStep(rs: seq<seq<int>>, w: nat, r: int, left: bool)
    requires Rectangular(rs, w) && 0 <= r < |rs|
    ensures |Flatten(Widen(rs[..r], left))| == r * (w + 1)
    ensures Flatten(Widen(rs[..r + 1], left)) ==
              Flatten(Widen(rs[..r], left)) + (if left then [Unknown] + rs[r] else rs[r] + [Unknown])
  {
    FlattenLength(Widen(rs[..r], left), w + 1);
    var row := if left then [Unknown] + rs[r] else rs[r] + [Unknown];
    assert Widen(rs[..r + 1], left) == Widen(rs[..r], left) + [row];
    FlattenAppend(Widen(rs[..r], left), [row]);
    assert Flatten([row]) == row;
  }

  /** The splice of addCol at row r turns r widened rows into r + 1. */
  lemma InsertStep(rs: seq<seq<int>>, w: nat, r: int, left: bool, cells: seq<int>)
    requires Rectangular(rs, w) && 0 <= r < |rs|
    requires cells == Flatten(Widen(rs[..r], left)) + Flatten(rs[r..])
    ensures var index := if left then r * (w + 1) else r * (w + 1) + w;
      && 0 <= index <= |cells|
      && cells[..index] + [Unknown] + cells[index..] == Flatten(Widen(rs[..r + 1], left)) + Flatten(rs[r + 1..])
  {
    WidenStep(rs, w, r, left);
    FlattenCons(rs, r);
    var done := Flatten(Widen(rs[..r], left));
    var rest := Flatten(rs[r + 1..]);
    assert cells == done + rs[r] + rest;
    var index := if left then r * (w + 1) else r * (w + 1) + w;
    if left {
      assert cells[..index] == done && cells[index..] == rs[r] + rest;
    } else {
      assert cells[..index] == done + rs[r] && cells[index..] == rest;
    }
  }

  /**
   * addCol: for each row r in turn, one unknown spliced in at offset
   * r * (cols + 1), plus cols on the right, counting the rows already
   * widened.
   */
  method AddCol(l: Layout, left: bool) returns (m: Layout)
    requires Consistent(l)
    ensures m == WithColumn(l, left)
  {
    ghost var rs := Rows(l);
    var cells := l.cells;
    var r := 0;
    assert rs[r..] == rs;
    while r < l.rows
      invariant 0 <= r <= l.rows
      invariant cells == Flatten(Widen(rs[..r], left)) + Flatten(rs[r..])
    {
      var index := if left then r * (l.cols + 1) else r * (l.cols + 1) + l.cols;
      InsertStep(rs, l.cols, r, left, cells);
      cells := cells[..index] + [Unknown] + cells[index..];
      r := r + 1;
    }
    assert rs[..r] == rs;
    m := Layout(l.rows, l.cols + 1, cells);
  }

  /** After r rows have been narrowed, the next row starts at r * (cols - 1). */
  lemma NarrowStep(rs: seq<seq<int>>, w: nat, r: int, left: bool)
    requires w >= 1 && Rectangular(rs, w) && 0 <= r < |rs|
    ensures |Flatten(Narrow(rs[..r], left))| == r * (w - 1)
    ensures Flatten(Narrow(rs[..r + 1], left)) ==
              Flatten(Narrow(rs[..r], left)) + (if left then rs[r][1..] else rs[r][..w - 1])
  {
    FlattenLength(Narrow(rs[..r], left), w - 1);
    var row := if left then rs[r][1..] else rs[r][..w - 1];
    assert Narrow(rs[..r + 1], left) == Narrow(rs[..r], left) + [row];
    FlattenAppend(Narrow(rs[..r], left), [row]);
    assert Flatten([row]) == row;
  }

  /** The cut of removeCol at row r turns r narrowed rows into r + 1. */
  lemma CutStep(rs: seq<seq<int>>, w: nat, r: int, left: bool, cells: seq<int>)
    requires w >= 1 && Rectangular(rs, w) && 0 <= r < |rs|
    requires cells == Flatten(Narrow(rs[..r], left)) + Flatten(rs[r..])
    ensures var index := if left then r * (w - 1) else r * (w - 1) + (w - 1);
      && 0 <= index < |cells|
      && cells[..index] + cells[index + 1..] == Flatten(Narrow(rs[..r + 1], left)) + Flatten(rs[r + 1..])
  {
    NarrowStep(rs, w, r, left);
    FlattenCons(rs, r);
    var done := Flatten(Narrow(rs[..r], left));
    var rest := Flatten(rs[r + 1..]);
    assert cells == done + rs[r] + rest;
    var index := if left then r * (w - 1) else r * (w - 1) + (w - 1);
    if left {
      assert rs[r] == [rs[r][0]] + rs[r][1..];
      assert cells[..index] == done && cells[index + 1..] == rs[r][1..] + rest;
    } else {
      assert rs[r] == rs[r][..w - 1] + [rs[r][w - 1]];
      assert cells[..index] == done + rs[r][..w - 1] && cells[index + 1..] == rest;
    }
  }

  /**
   * removeCol: refused with a single column; otherwise for each row r in
   * turn, one cell cut at offset r * (cols - 1), plus cols - 1 on the
   * right, counting the rows already narrowed.
   */
  method RemoveCol(l: Layout, left: bool) returns (m: Layout)
    requires Consistent(l)
    ensures m == WithoutColumn(l, left)
  {
    if l.cols <= 1 {
      return l;
    }
    ghost var rs := Rows(l);
    var cells := l.cells;
    var r := 0;
    assert rs[r..] == rs;
    while r < l.rows
      invariant 0 <= r <= l.rows
      invariant cells == Flatten(Narrow(rs[..r], left)) + Flatten(rs[r..])
    {
      var index := if left then r * (l.cols - 1) else r * (l.cols - 1) + (l.cols - 1);
      CutStep(rs, l.cols, r, left, cells);
      cells := cells[..index] + cells[index + 1..];
      r := r + 1;
    }
    assert rs[..r] == rs;
    m := Layout(l.rows, l.cols - 1, cells);
  }

  // ---- reset ----

  /** resetGrid: every state back to unknown, the shape untouched. */
  function ResetGrid(l: Layout): (m: Layout)
    requires Consistent(l)
    ensures Consistent(m) && m.rows == l.rows && m.cols == l.cols
    ensures Rows(m) == seq(l.rows, _ => Blank(l.cols))
  {
    var rs := seq(l.rows, _ => Blank(l.cols));
    RowsOf(rs, l.cols);
    BlankFlatten(l.rows, l.cols);
    Layout(l.rows, l.cols, seq(|l.cells|, _ => Unknown))
  }

  lemma {:induction false} BlankFlatten(n: nat, w: nat)
    ensures Flatten(seq(n, _ => Blank(w))) == seq(n * w, _ => Unknown)
  {
    var rs := seq(n, _ => Blank(w));
    if n > 0 {
      assert rs[1..] == seq(n - 1, _ => Blank(w));
      BlankFlatten(n - 1, w);
      assert Flatten(rs) == Blank(w) + seq((n - 1) * w, _ => Unknown);
    }
  }

  // ---- keyboard and mouse ----

  /** JavaScript's `a <= b` on strings: lexicographic order of code units. */
  predicate LexLe(a: string, b: string)
    decreases |a|
  {
    |a| == 0 || (|b| > 0 && (a[0] < b[0] || (a[0] == b[0] && LexLe(a[1..], b[1..]))))
  }

  /** `key >= '0' && key <= '8'`. */
  predicate DigitKey(key: string) {
    LexLe("0", key) && LexLe(key, "8")
  }

  /** A key in the digit range starts with one of 0..8. */
  lemma DigitKeyStart(key: string)
    ensures DigitKey(key) ==> |key| >= 1 && '0' <= key[0] <= '8'
    ensures |key| == 1 ==> (DigitKey(key) <==> '0' <= key[0] <= '8')
  {
    if |key| == 1 {
      assert key[1..] == [];
      assert LexLe("0"[1..], key[1..]) && LexLe(key[1..], "8"[1..]);
    }
  }

  /** The longest run of decimal digits at the front of s. */
  function LeadingDigits(s: string): (d: string)
    ensures AllDigits(d) && d <= s
    ensures |d| < |s| ==> !IsDigit(s[|d|])
  {
    if |s| == 0 || !IsDigit(s[0]) then [] else [s[0]] + LeadingDigits(s[1..])
  }

  /** A string of digits is its own leading run. */
  lemma LeadingDigitsOfDigits(s: string)
    ensures AllDigits(s) ==> LeadingDigits(s) == s
  {
    if |s| > 0 && AllDigits(s) {
      assert AllDigits(s[1..]);
      LeadingDigitsOfDigits(s[1..]);
      assert [s[0]] + s[1..] == s;
    }
  }

  /**
   * parseInt of a key that starts with a digit: the decimal value of its
   * leading run of digits, which is what Atoi reads from that run.
   */
  function ParseLeading(key: string): (n: nat)
    requires |key| >= 1 && IsDigit(key[0])
    ensures |key| == 1 || !IsDigit(key[1]) ==> n == key[0] as int - '0' as int
    ensures ParseInt(LeadingDigits(key)) == Some(n)
    ensures AllDigits(key) ==> ParseInt(key) == Some(n)
  {
    var d := LeadingDigits(key);
    assert |d| > 0;
    LeadingDigitsOfDigits(key);
    assert |key| == 1 || !IsDigit(key[1]) ==>
      && LeadingDigits(key[1..]) == [] && d == [key[0]] && d[..|d| - 1] == []
      && DigitsValue(d) == DigitsValue([]) * 10 + (key[0] as int - '0' as int);
    DigitsValue(d)
  }

  /** The state a key writes into the focused cell, if any. */
  function KeyState(key: string): (v: Option<int>)
    ensures DigitKey(key) ==> v == Some(ParseLeading(key))
    ensures key == "Backspace" || key == "Delete" ==> v == Some(Unknown)
  {
    DigitKeyStart(key);
    if DigitKey(key) then Some(ParseLeading(key))
    else if Lower(key) == "f" then Some(Flag)
    else if Lower(key) == "u" || key == "Backspace" || key == "Delete" then Some(Unknown)
    else if Lower(key) == "e" then Some(0)
    else None
  }

  /**
   * On a single character the page and the terminal agree: a key writes a
   * state exactly when the terminal accepts the same character as a
   * symbol, and it writes the same state.
   */
  lemma KeyStateAgreesWithTerminal(ch: char)
    ensures KeyState([ch]) == Terminal.ParseToken([ch])
    ensures KeyState([ch]).Some? ==> IsValidState(KeyState([ch]).value)
  {
    var key := [ch];
    DigitKeyStart(key);
    if '0' <= ch <= '8' {
      assert LeadingDigits(key) == key;
      assert key[..0] == [];
      assert DigitsValue(key) == ch as int - '0' as int;
    }
  }

  function Min(a: int, b: int): int { if a <= b then a else b }
  function Max(a: int, b: int): int { if a >= b then a else b }

  /**
   * A key pressed on cell index: the new board, the new focus and whether
   * the page handled the key. State keys rewrite that cell; arrows move the
   * focus, clamped to the array.
   */
  function KeyDown(l: Layout, index: int, key: string): (out: (Layout, int, bool))
    requires Consistent(l) && 0 <= index < |l.cells|
    ensures Consistent(out.0) && out.0.rows == l.rows && out.0.cols == l.cols
    ensures forall i :: 0 <= i < |l.cells| && i != index ==> out.0.cells[i] == l.cells[i]
    ensures 0 <= out.1 < |l.cells|
    ensures KeyState(key).Some? ==> out.0.cells[index] == KeyState(key).value && out.1 == index && out.2
    ensures KeyState(key).None? ==> out.0 == l
  {
    match KeyState(key)
    case Some(v) => (l.(cells := l.cells[index := v]), index, true)
    case None =>
      var last := |l.cells| - 1;
      if key == "ArrowRight" then (l, Min(last, index + 1), true)
      else if key == "ArrowLeft" then (l, Max(0, index - 1), true)
      else if key == "ArrowDown" then (l, Min(last, index + l.cols), true)
      else if key == "ArrowUp" then (l, Max(0, index - l.cols), true)
      else (l, index, false)
  }

  /** Arrows move one cell sideways or one row up or down unless that leaves the array. */
  lemma ArrowMoves(l: Layout, index: int)
    requires Consistent(l) && 0 <= index < |l.cells|
    ensures index + 1 < |l.cells| ==> KeyDown(l, index, "ArrowRight").1 == index + 1
    ensures index >= 1 ==> KeyDown(l, index, "ArrowLeft").1 == index - 1
    ensures index + l.cols < |l.cells| ==> KeyDown(l, index, "ArrowDown").1 == index + l.cols
    ensures index >= l.cols ==> KeyDown(l, index, "ArrowUp").1 == index - l.cols
    ensures index + 1 >= |l.cells| ==> KeyDown(l, index, "ArrowRight").1 == |l.cells| - 1
  {
    assert KeyState("ArrowRight").None? by { assert !LexLe("ArrowRight", "8"); }
    assert KeyState("ArrowLeft").None? by { assert !LexLe("ArrowLeft", "8"); }
    assert KeyState("ArrowDown").None? by { assert !LexLe("ArrowDown", "8"); }
    assert KeyState("ArrowUp").None? by { assert !LexLe("ArrowUp", "8"); }
  }

  /** Right click: a flag becomes unknown, anything else becomes a flag. */
  function Toggle(s: int): (t: int)
    ensures t == Unknown || t == Flag
    ensures t == Flag <==> s != Flag
  {
    if s == Flag then Unknown else Flag
  }

  /** Two right clicks give back a marker and turn any other state into unknown. */
  lemma ToggleTwice(s: int)
    ensures Toggle(Toggle(s)) == if s == Flag || s == Unknown then s else Unknown
  {
  }

  /** A right click on cell index: only that cell toggles, and the focus moves there. */
  function RightClick(l: Layout, index: int): (out: (Layout, int))
    requires Consistent(l) && 0 <= index < |l.cells|
    ensures Consistent(out.0) && out.0.rows == l.rows && out.0.cols == l.cols
    ensures out.0.cells[index] == Toggle(l.cells[index]) && out.1 == index
    ensures forall i :: 0 <= i < |l.cells| && i != index ==> out.0.cells[i] == l.cells[i]
  {
    (l.(cells := l.cells[index := Toggle(l.cells[index])]), index)
  }
}
